=== FILE: README.md ===
# hexo_recover in Dafny

`recover.py` rebuilds the Markdown sources of a Hexo blog from the HTML a
static-site build left behind. It only looks at year directories: top-level
entries whose names are four digits. Under each one it takes every
`index.html` that is an article page. For each page it does the following:

- extracts the title, the categories, the tags and the article body;
- turns the body into Markdown, with highlighted code and `<pre>` blocks
  carried through placeholders;
- chooses a file name that collides with nothing already in `_posts`;
- writes a front-matter block followed by the body;
- copies the page's images, found relative to the site root or to the page.

This project models that pipeline as pure functions over an immutable HTML
tree and proves what each step guarantees.

| file | module | models |
|---|---|---|
| `wrappers.dfy` | `Wrappers` | `Option` |
| `strings.dfy` | `Strings` | Python's `str.isspace`/`\s` whitespace, `strip`, `in`, `str.replace`, `"".join`, `str(int)` |
| `dom.dfy` | `Dom` | the parsed page as a tree; `find`, `find_all` and `get_text` in document order |
| `metadata.dfy` | `Metadata` | `extract_title`, `extract_categories`, `extract_tags` |
| `filename.dfy` | `Filename` | `sanitize_filename` and the collision loop of `process_html_file` |
| `content.dfy` | `Content` | `extract_content`: img repair, child filter, code placeholders, fallback, replacement |
| `frontmatter.dfy` | `FrontMatter` | the front-matter block and file layout |
| `recover.dfy` | `Recover` | `is_article_page`, the year-directory test, `copy_resources`' path choice, `process_html_file`, the walk in `main` |

Some library code is opaque to the model and is passed in as functions:

- the HTML parser (`BeautifulSoup`);
- the serialiser `str(tag)`;
- html2text;
- date reading and `strftime`.

The `Converter` and `Tools` datatypes bundle these functions. Files on
disk become a set of existing names.

The tool only writes posts. `FrontMatter.ReadPost` is a reader defined
here as the writer's inverse: it splits the file on `\n`, takes the header
up to the first closing fence, expects a blank line and keeps the rest as
the body. The round-trip lemmas are stated against it.

## Model

| member | source | states |
|---|---|---|
| Strings.Strip | recover.py:16 | `strip()` gives a contiguous piece of the input that starts where the leading whitespace ends. No whitespace is left at either end, every non-whitespace character is kept in order, and an already trimmed string comes back unchanged |
| Strings.StripEmptyIff | recover.py:208 | a string strips to empty exactly when all its characters are whitespace, which is the fallback test of `extract_content` |
| Strings.ContainsIff | recover.py:25 | the substring test `x in s` holds exactly when `s` splits as `a + x + b` |
| Strings.ReplaceAtFirst | recover.py:226 | `str.replace` copies the text before the first occurrence, puts the replacement in its place and continues on the rest |
| Strings.ReplaceAbsent | recover.py:226 | `str.replace` leaves a string without the pattern unchanged |
| Strings.ParseNatToString | recover.py:173 | the decimal text of a counter reads back to the counter |
| Strings.NatToStringInjective | recover.py:258 | different counters print differently, so numbered names and placeholders are distinct |
| Strings.JoinContainsPart | recover.py:157 | every line joined into a code block appears in the joined text |
| Dom.Find | recover.py:32 | `find` returns nothing exactly when no node of the tree matches. Otherwise it returns a matching node of the tree, and no node before it in document order matches |
| Dom.Select | recover.py:97 | `find_all` keeps exactly the matching nodes. When the first node matches, it comes first |
| Dom.SelectAppend | recover.py:97 | selecting from two lists one after the other gives the selections of each, in order; with `Dom.SelectOne` this makes `find_all` the order-keeping filter |
| Dom.SelectOne | recover.py:97 | one node is selected exactly when it matches |
| Dom.SelectFirst | recover.py:32 | the first node selected is the first matching node: nothing before it matches |
| Filename.RemoveIllegal | recover.py:14 | the result has none of the nine characters the pattern removes (angle brackets, colon, double quote, both slashes, bar, question mark, star) and is made of characters of the title. A title without those characters passes unchanged. The result has no visible character exactly when the title consists only of illegal characters and whitespace |
| Filename.RemoveIllegalAppend | recover.py:14 | deleting the illegal characters works piece by piece on a concatenation, so nothing is moved or added |
| Filename.RemoveIllegalOne | recover.py:14 | one character is deleted exactly when it is one of the nine illegal ones |
| Filename.Collapse | recover.py:16 | each run of whitespace becomes one space, so no two spaces are adjacent and no other whitespace remains. Visible characters are kept in order. The result is empty exactly when the input is, and it starts with whitespace, and ends with it, exactly when the input does, so a leading or trailing run leaves one space |
| Filename.CollapseWords | recover.py:16 | collapsing whitespace and stripping both ends gives the whitespace-separated words of the input joined by single spaces, so no word is dropped, split, merged or moved |
| Filename.CleanedIsJoinedWords | recover.py:14-16 | the cleaned title is the words of the title, after the illegal characters are removed, joined by single spaces |
| Filename.SanitizeFilename | recover.py:11-20 | at most 100 characters, and exactly 100 when the cleaned title is longer; no illegal character; no whitespace other than single spaces; no leading space. It is a prefix of the collapsed, stripped title, and equal to it when that fits in 100. Its visible characters are a prefix of the title's legal ones, and it is empty exactly when the title holds nothing but illegal characters and whitespace |
| Filename.CleanedVisible | recover.py:14-19 | cutting the cleaned title at any length keeps the visible characters a prefix of the title's legal ones, and the cleaned title is empty exactly when the title has no legal visible character |
| Filename.BaseName | recover.py:250-252 | the base name is never empty; a non-empty sanitised title is used as is, otherwise 无标题 |
| Filename.CandidateInjective | recover.py:255-258 | `base`, `base_1`, `base_2`, … give pairwise different file names |
| Filename.ProbedWithin | recover.py:257-259 | the collision loop can only pass as many names as already exist, so it ends |
| Filename.ChooseFileName | recover.py:250-259 | the chosen `name.md` does not exist yet, and it is the first candidate in the order `base`, `base_1`, … that does not |
| Filename.FirstFreeUnique | recover.py:257-259 | the first free candidate is unique |
| Filename.PickFileName | recover.py:254-259 | the `while` loop, with counter and probe, ends on a name that does not exist and is exactly the first free candidate |
| Filename.SameTitleTwice | recover.py:250-259 | a second post with the same title, written after the first, is given `base_1` |
| Metadata.MetaContent | recover.py:32-33 | a meta value is produced exactly when the first `meta` with that `property` exists and has a non-empty `content`, and it is that `content` |
| Metadata.CutAtSeparator | recover.py:41-42 | the part before the site-name separator (space, bar, space) is a prefix of the text without the separator, and no separator starts inside it. When the separator occurs, it follows the prefix, so the cut is at the first one; otherwise the text is whole |
| Metadata.CutAtFirst | recover.py:41-42 | a text made of `a`, the separator and `b`, with no separator starting inside `a`, is cut back to exactly `a`, whatever `b` holds |
| Metadata.ExtractTitle | recover.py:29-45 | a present og:title wins, stripped. Otherwise the stripped `<title>` text is cut at its first site-name separator: the title is a prefix with no separator starting inside it, followed by the separator when there is one. Otherwise the title is 无标题 |
| Metadata.TitleFromTagNonEmpty | recover.py:37-43 | a `<title>` with visible text gives a non-empty title |
| Metadata.TitleCanBeEmpty | recover.py:32-34 | an og:title whose content is a single space yields the empty title |
| Metadata.FirstSeen | recover.py:98-101 | the list keeps its starting entries and stays free of duplicates. What it adds are non-empty items, in order of first occurrence, and every non-empty item ends up in it |
| Metadata.ExtractTaxonomy | recover.py:87-121 | there are no duplicates, and the meta value, when present, comes first. After it come the stripped non-empty link texts, each once, in order of first appearance, and every one of them is included |
| Metadata.ExtractCategories | recover.py:87-103 | for `article:section` and links of class `post-meta-categories`: no duplicates, the meta value first, every non-empty stripped link text included |
| Metadata.ExtractTags | recover.py:105-121 | for `article:tag` and links of class `post-meta__tags`: no duplicates, the meta value first, every non-empty stripped link text included |
| Content.FixSrc | recover.py:133-138 | a src starting `/..` loses its one leading slash. One starting `//` loses every leading slash. Any other src is unchanged. The result never starts with `//` or `/..` |
| Content.FixSrcIdempotent | recover.py:131-138 | repairing a src twice is the same as once |
| Content.FixImages | recover.py:131-138 | repairing image sources keeps the number of nodes in each list of children. It changes no text node, tag name or class list of those nodes |
| Content.FixImagesErase | recover.py:131-138 | with image sources erased, the repaired trees equal the original ones: no node, text, tag, class, child or other attribute changes, at any depth |
| Content.FixImagesSrcs | recover.py:131-138 | at every depth, each image's src after the repair is the repair of its own src before, and an image without a src still has none |
| Content.ContainerImagesRepaired | recover.py:131-138 | after `FixContainerImages`, no image anywhere in the article has a src starting `//` or `/..` |
| Content.FixImagesIdempotent | recover.py:131-138 | the repair of a whole subtree is idempotent |
| Content.RoleOf | recover.py:146-205 | text nodes are skipped. A `figure.highlight` is a code block. A `pre` is a code block unless it is inside a highlight figure, in which case it is dropped. Other tags are kept. A `div` or `nav` with a class list is kept only if it is a `div` with none of the three furniture classes |
| Content.RoleOfSameTag | recover.py:131-147 | the image repair does not change how any child is filtered |
| Content.LastLanguage | recover.py:166-170 | with no `language-` class the language is empty. Otherwise it is the last such class with every `language-` removed |
| Content.LanguageOfClass | recover.py:168-170 | a single class `language-x`, with `x` free of `language-`, gives language `x` |
| Content.HighlightLines | recover.py:150-158 | `HighlightCode`: when the code comes from the `span.line` elements of the `pre` in `td.code`, and no span text holds a line break, splitting the code on `\n` gives the span texts back, one per span and in document order |
| Content.PlaceholderInjective | recover.py:173 | different counters give different placeholders |
| Content.AssembleSpec | recover.py:141-205 | of `Assemble`: block `i` is `BlockOf` the `i`-th code child (its text, or the highlight code and language, recover.py:149-198), in document order, with the placeholder numbered from the counter. Each placeholder's `<p>` paragraph and every kept child's serialisation appear in the HTML, and children that are all dropped yield nothing |
| Content.AssembleAppend | recover.py:141-205 | `Assemble` handles the children left to right: for a list split in two, the HTML and the blocks are those of the front part followed by those of the rest, numbered on from where the front part stopped |
| Content.AssembleOne | recover.py:149-205 | one child contributes its placeholder paragraph and its block when it is a code child, its serialisation when kept, and nothing when dropped |
| Content.AssembleContainer | recover.py:141-142 | the blocks of an article are numbered from 0 |
| Content.WithFallback | recover.py:207-211 | the collected HTML is kept as a prefix. It is unchanged when it has visible text. When it is blank, it is followed by the serialisations of the article's `<p>` elements in document order and nothing else |
| Content.FallbackAppend | recover.py:209-211 | the appended paragraphs are concatenated one after another: the text for a list of paragraphs is the text for its front part followed by that for the rest |
| Content.FallbackOne | recover.py:210-211 | one paragraph contributes exactly its serialisation |
| Content.Fence | recover.py:222-225 | both branches produce the fence with the language after the backticks, empty when there is none |
| Content.ReplaceBlocks | recover.py:221-226 | Markdown that contains none of the placeholders is left unchanged |
| Content.ReplaceOnePlaceholder | recover.py:221-226 | a placeholder occurring once is replaced by its fenced code block, and the text around it is kept |
| Content.ReplaceWoven | recover.py:220-226 | Markdown made of text segments with the placeholders in slots between them, in which each placeholder at its turn occurs only in its own slot, ends up with every slot holding its fenced block and the segments unchanged |
| Content.ReplaceStage | recover.py:220-226 | replacing the next placeholder fills its slot and changes nothing else |
| Content.FillWoven | recover.py:220-228 | for such Markdown the filled body is the segments with the fenced blocks in their slots, stripped |
| Content.FillBlocks | recover.py:221-228 | the result has no whitespace at either end, and with no placeholder present it is the stripped Markdown |
| Content.ExtractContent | recover.py:123-228 | no article container gives `""`. The body never starts or ends with whitespace. When html2text's output has no placeholder, the body is that output stripped |
| Content.ExtractContentWoven | recover.py:123-228 | when html2text's output holds the placeholders in slots as above, the body is that output with every placeholder replaced by its fenced block, in document order, and stripped |
| FrontMatter.HeaderOf | recover.py:266-278 | the title is kept as given. There is a date exactly when there is a creation date, and it is that date formatted. There is an update date exactly when there is one different from the creation date, and it is that date formatted. The category and the tag are the first of each list, present exactly when the list is non-empty |
| FrontMatter.HeaderLines | recover.py:265-280 | the block is fenced by `---` lines, the title line comes second, and there is one line per optional field present |
| FrontMatter.ReadHeaderLines | recover.py:264-280 | reading the block back gives the header it was written from |
| FrontMatter.PostFile | recover.py:264-283 | the file starts with the fence and the quoted title line, and ends with the closing fence, a blank line and the body unchanged |
| FrontMatter.ReadPostFile | recover.py:264-283 | when no header value holds a line break, reading a written file back (split on `\n`, header up to the first closing fence, a blank line, then the body) gives the header and the body, whatever the body holds |
| FrontMatter.SplitPostFile | recover.py:264-283 | the lines of the file are the header lines, one blank line and the lines of the body |
| FrontMatter.RenderPost | recover.py:262-283 | the front matter of a post reads back to its values, the file opens with its title and closes with its body, and when no header value holds a line break the whole file reads back to the header and the body |
| Recover.IsArticlePage | recover.py:22-27 | a page is an article exactly when its HTML contains `<article class="container post-content"` |
| Recover.LowDecimalDigit | recover.py:377 | below U+0660, `\d` matches exactly `0` to `9` |
| Recover.AsciiYearDirectory | recover.py:377 | `IsYearDirectory`: for names made of characters below U+0660, the filter accepts exactly the four-ASCII-digit names |
| Recover.YearIsYearDirectory | recover.py:377 | every year from 1000 to 9999 names a year directory |
| Recover.ArabicIndicYear | recover.py:377 | a name in Arabic-Indic digits is accepted too |
| Recover.ClassifySrc | recover.py:303-314 | a missing or empty src is skipped. One starting with `/` is looked up from the site root, with the slash removed. Any other is looked up from the page's directory |
| Recover.JoinPath | recover.py:311 | joining onto an absolute path gives that path. Otherwise the result is the directory, one `/` exactly when the directory is non-empty and does not already end in one, then the relative path |
| Recover.JoinedUnderUnique | recover.py:311 | the directory and the relative path determine that joined path |
| Recover.ResourcePath | recover.py:303-314 | an image gets a path to look up exactly when it has a non-empty src. A src not starting with `/` gives the page's directory joined with the src. A src `/p` gives the site root joined with `p`, unless `p` itself starts with `/`, in which case the path is `p`. "Joined" is the exact directory, separator and path above |
| Recover.RootRelativeUnderRoot | recover.py:309-311 | a src `/p`, with `p` not starting with `/`, gives the site root joined with `p` |
| Recover.PageRelativeUnderPage | recover.py:312-314 | a src not starting with `/` gives the page's directory joined with the src |
| Recover.JoinRelative | recover.py:311-314 | joining a relative path gives the directory, a `/` when the directory needs one, and the path |
| Recover.RootAndPageDiffer | recover.py:309-314 | when the site root and the page's directory are different directories (compared with the separator joining adds, so `/a` and `/a/` are the same), a src `/p` does not give the page's directory joined with `p` |
| Recover.SiblingDirectories | recover.py:309-314 | with the site root `/a` and the page in `/b`, a src `/x` is looked for at `/a/x`, while the page-relative path would be `/b/x` |
| Recover.ProtocolRelativeLeavesRoot | recover.py:309-311 | `//host/a.png` becomes `/host/a.png`, outside the site root |
| Recover.LookupEach | recover.py:303-306 | for `ImageLookups`, over the page's images: there is at most one lookup per image, and one for each image exactly when all of them have a src |
| Recover.LookupEachAppend | recover.py:303-306 | the lookups of a list of images are those of its parts, in order: the loop visits every image once, front to back |
| Recover.LookupEachOne | recover.py:303-311 | one image gives its path when it has a src and nothing otherwise |
| Recover.ProcessPage | recover.py:230-289 | a page yields a post exactly when it is an article. The post's file name is `name.md` for the first free candidate built from the sanitised title. The text opens with the front matter's title line and closes with the extracted body |
| Recover.ProcessPageReadsBack | recover.py:240-283 | when no header value holds a line break, the written file reads back to the header built from the page's title, dates, first category and first tag, and to the extracted body |
| Recover.ArticleCount | recover.py:380-384 | no more posts than pages |
| Recover.ProcessAll | recover.py:379-384 | one post per article page; all their names are fresh and pairwise different as strings |

## Left out

- Reading and writing files, `os.listdir`, `os.walk`, `os.path.isdir`, `os.path.exists`, `os.makedirs`, `shutil.copy2`: the pages are a sequence of HTML texts, and existing post names are a set.
- `os.path.abspath`, `os.path.relpath` and `os.path.dirname`: path normalisation is not modelled. The page directory is a parameter, and `ResourcePath` stops at the joined path.
- `copy_all_images` (recover.py:332-341): it is a whole-directory copy with no logic beyond the file system.
- `extract_dates` (recover.py:47-85): `datetime.fromisoformat` and `strftime` are opaque. Dates enter as optional values of an abstract type, with a formatting function.
- HTML parsing and serialisation: `BeautifulSoup(...)` and `str(tag)` are parameters. Comments, doctype and other non-tag nodes are not distinguished from text.
- html2text (recover.py:213-218) is a parameter, so nothing is claimed about how it renders HTML.
- `main`'s prompts, defaults and printed totals (recover.py:343-395), and every `print`: they are console I/O.
- The `try`/`except` handlers (recover.py:232, 291-293, 297, 329-330): the model has no exceptions.
- Content.ExtractContent: the ensures states the result exactly only when html2text's output contains no placeholder. With placeholders present, `Content.ExtractContentWoven` states it for output in which each placeholder, at its turn, occurs only in its own slot. Output that escapes or splits a placeholder, a code block whose text holds a later placeholder (say `__CODEBLOCK_3__`), or an occurrence that straddles the edge of a slot is not covered, because what html2text does to the placeholder paragraphs is opaque.
- Content.AssembleSpec: states the blocks exactly but the HTML only by what it contains. The exact HTML follows from `Content.AssembleAppend` and `Content.AssembleOne` together, not from one contract.
- Content.HighlightCode: the fallbacks (the text of `td.code`, of the first `pre`, or of the figure, recover.py:159-165) are stated only by the function's definition, since each is one `get_text` call. `get_text(separator)` is modelled as joining the tree's text nodes in document order. bs4's handling of whitespace-only strings and entities is not modelled.
- Content.HighlightLines: covers span texts without a line break. A span whose text holds one splits into several lines.
- Recover.JoinPath: models POSIX `os.path.join`. On Windows, where the tool's default paths live (recover.py:356, 360), `ntpath.join` also treats drive letters and backslashes, and the model does not follow that.
- Recover.ProcessAll: a file name counts as taken only when it is exactly one already written, as on a case-sensitive file system. The tool's default output is on Windows (recover.py:356, 360), where `os.path.exists` (recover.py:257) ignores case. There, after `Hello.md` is written, a title `hello` gets `hello_1.md` from the source but `hello.md` from the model.
- Filename.ChooseFileName: the same exact-string test of whether a name is taken, for the same reason.
- Recover.IsDecimalDigit: uses the decimal digits of Unicode 15.0. Python versions built on other Unicode releases may accept slightly different characters.

Behaviours worth knowing:

- The title can be empty when og:title is only whitespace (`Metadata.TitleCanBeEmpty`). The file name then falls back to 无标题, but the front matter holds `title: ""`.
- The front-matter keys are `categories:` and `tags:`, each with only the first value.
- Every `nav` with a class list is dropped, whatever the classes.
- The year filter accepts any four Unicode decimal digits (`Recover.ArabicIndicYear`), not only plausible years.
- A title is written into `title: "..."` as it is, without escaping. A line break in it, or in a category or tag, splits the header line, so the file no longer reads back (`FrontMatter.ReadPostFile` needs values without line breaks). A `"` in it reads back with the model's reader, but a YAML reader ends the quoted string there.

=== FILE: content.dfy ===
/**
 The body of a post as `extract_content` builds it (recover.py:123-227):
 image sources are repaired, the direct children of the article container
 are filtered, code blocks are set aside behind numbered placeholders, the
 remaining HTML goes through an HTML-to-Markdown converter and the
 placeholders are then swapped for fenced code blocks.
 */
module Content {
  import opened Wrappers
  import opened Strings
  import opened Dom

  /** The two transforms `extract_content` takes from libraries: `str(tag)`,
      the HTML serialisation of an element, and `html2text`'s conversion of
      HTML to Markdown. Neither is modelled; both are given. */
  datatype Converter = Converter(serialize: Node -> string, toMarkdown: string -> string)

  // ---------------------------------------------------------------------------
  // img src repair (recover.py:131-138)
  // ---------------------------------------------------------------------------

  /** Number of leading `/` characters. */
  function LeadingSlashes(s: string): (k: nat)
    ensures k <= |s|
    ensures forall i :: 0 <= i < k ==> s[i] == '/'
    ensures k < |s| ==> s[k] != '/'
  {
    if s == [] || s[0] != '/' then 0 else 1 + LeadingSlashes(s[1..])
  }

  /** The rewrite of one image `src`: a `/..` start loses exactly one slash,
      a `//` start loses every leading slash, anything else is kept. */
  function FixSrc(src: string): (r: string)
    ensures IsPrefix("/..", src) ==> src == "/" + r
    ensures !IsPrefix("/..", src) && IsPrefix("//", src) ==>
              && |r| + 2 <= |src|
              && src[|src| - |r|..] == r
              && (forall i :: 0 <= i < |src| - |r| ==> src[i] == '/')
              && (r == [] || r[0] != '/')
    ensures !IsPrefix("/..", src) && !IsPrefix("//", src) ==> r == src
    ensures !IsPrefix("//", r) && !IsPrefix("/..", r)
  {
    if IsPrefix("/..", src) then
      assert src[1..][0] == '.';
      src[1..]
    else if IsPrefix("//", src) then src[LeadingSlashes(src)..]
    else src
  }

  /** Repairing twice is repairing once. */
  lemma FixSrcIdempotent(src: string)
    ensures FixSrc(FixSrc(src)) == FixSrc(src)
  {
  }

  /** An `img` with a truthy `src` gets that `src` repaired. */
  function FixImage(n: Node): (r: Node)
    ensures r.Element? == n.Element?
    ensures n.Element? ==> r.name == n.name && r.classes == n.classes && r.children == n.children
    ensures n.Text? ==> r == n
  {
    if IsTag(n, "img") && HasNonEmptyAttr(n, "src") then
      n.(attrs := n.attrs["src" := FixSrc(n.attrs["src"])])
    else n
  }

  /** Two nodes that agree on everything the child filter looks at. */
  predicate SameTag(a: Node, b: Node) {
    match a
    case Text(t) => b == Text(t)
    case Element(name, classes, _, _) => b.Element? && b.name == name && b.classes == classes
  }

  /** The nodes `cs` with every image below them (themselves included)
      repaired. */
  function FixImages(cs: seq<Node>): (r: seq<Node>)
    ensures |r| == |cs|
    ensures forall i :: 0 <= i < |cs| ==> SameTag(cs[i], r[i])
    decreases cs
  {
    if cs == [] then []
    else
      var head := match cs[0]
        case Text(_) => cs[0]
        case Element(name, classes, attrs, kids) => FixImage(Element(name, classes, attrs, FixImages(kids)));
      [head] + FixImages(cs[1..])
  }

  /** `for img in container.find_all('img')`: every image strictly below
      the container is repaired. */
  function FixContainerImages(container: Node): (r: Node)
    ensures SameTag(container, r)
  {
    match container
    case Text(_) => container
    case Element(name, classes, attrs, kids) => Element(name, classes, attrs, FixImages(kids))
  }

  /** An image whose `src` is present has one that starts with neither
      `//` nor `/..`. */
  predicate SrcRepaired(n: Node) {
    IsTag(n, "img") && Attr(n, "src").Some? ==>
      !IsPrefix("//", Attr(n, "src").value) && !IsPrefix("/..", Attr(n, "src").value)
  }

  /** Every node in the trees `cs` satisfies `SrcRepaired`. */
  ghost predicate AllRepaired(cs: seq<Node>)
    decreases cs
  {
    cs != [] ==>
      && SrcRepaired(cs[0])
      && (cs[0].Element? ==> AllRepaired(cs[0].children))
      && AllRepaired(cs[1..])
  }

  lemma {:induction false} FixImagesRepairs(cs: seq<Node>)
    ensures AllRepaired(FixImages(cs))
    decreases cs
  {
    if cs != [] {
      if cs[0].Element? {
        FixImagesRepairs(cs[0].children);
      }
      FixImagesRepairs(cs[1..]);
      assert FixImages(cs)[1..] == FixImages(cs[1..]);
    }
  }

  lemma {:induction false} WalkRepaired(cs: seq<Node>, ancestors: seq<Node>)
    requires AllRepaired(cs)
    ensures forall h :: h in Walk(cs, ancestors) ==> SrcRepaired(h.node)
    decreases cs
  {
    if cs != [] {
      if cs[0].Element? {
        WalkRepaired(cs[0].children, [cs[0]] + ancestors);
      }
      WalkRepaired(cs[1..], ancestors);
    }
  }

  /** After the repair no image below the container has a `src` starting
      with `//` or `/..`. */
  lemma ContainerImagesRepaired(container: Node)
    ensures forall h :: h in Descendants(FixContainerImages(container)) ==> SrcRepaired(h.node)
  {
    if container.Element? {
      FixImagesRepairs(container.children);
      WalkRepaired(FixImages(container.children), [FixContainerImages(container)]);
    }
  }

  /** Running the repair on an already repaired tree changes nothing. */
  lemma {:induction false} FixImagesIdempotent(cs: seq<Node>)
    ensures FixImages(FixImages(cs)) == FixImages(cs)
    decreases cs
  {
    if cs != [] {
      if cs[0].Element? {
        FixImagesIdempotent(cs[0].children);
        var e := cs[0];
        var once := FixImage(Element(e.name, e.classes, e.attrs, FixImages(e.children)));
        if IsTag(once, "img") && HasNonEmptyAttr(once, "src") {
          FixSrcIdempotent(e.attrs["src"]);
          assert once.attrs["src" := FixSrc(once.attrs["src"])] == once.attrs;
        }
      }
      FixImagesIdempotent(cs[1..]);
      assert FixImages(cs)[1..] == FixImages(cs[1..]);
    }
  }

  /** The trees `cs` with the `src` of every image taken away: the part of a
      page the repair does not touch. */
  function EraseSrcs(cs: seq<Node>): (r: seq<Node>)
    ensures |r| == |cs|
    decreases cs
  {
    if cs == [] then []
    else
      var head := match cs[0]
        case Text(_) => cs[0]
        case Element(name, classes, attrs, kids) =>
          Element(name, classes, if name == "img" then attrs - {"src"} else attrs, EraseSrcs(kids));
      [head] + EraseSrcs(cs[1..])
  }

  /** The repair changes nothing but image sources: no node, text, tag,
      class, child or other attribute is added, removed or altered. */
  lemma {:induction false} FixImagesErase(cs: seq<Node>)
    ensures EraseSrcs(FixImages(cs)) == EraseSrcs(cs)
    decreases cs
  {
    if cs != [] {
      FixImagesErase(cs[1..]);
      assert FixImages(cs)[1..] == FixImages(cs[1..]);
      if cs[0].Element? {
        var e := cs[0];
        FixImagesErase(e.children);
        var src := if "src" in e.attrs then e.attrs["src"] else "";
        assert e.attrs["src" := FixSrc(src)] - {"src"} == e.attrs - {"src"};
      }
    }
  }

  /** `src` of an image after the repair, from the one before. */
  function RepairedSrc(src: Option<string>): Option<string> {
    if src.Some? then Some(FixSrc(src.value)) else None
  }

  /** Node by node, `b` is `a` with the `src` of every image `i` set to
      `RepairedSrc(Attr(i, "src"))`. */
  ghost predicate SrcsRepairedFrom(a: seq<Node>, b: seq<Node>)
    decreases a
  {
    && |a| == |b|
    && (a != [] ==>
          && (IsTag(a[0], "img") ==> Attr(b[0], "src") == RepairedSrc(Attr(a[0], "src")))
          && (a[0].Element? && b[0].Element? ==> SrcsRepairedFrom(a[0].children, b[0].children))
          && SrcsRepairedFrom(a[1..], b[1..]))
  }

  /** Every image, at any depth, gets exactly its own `src` repaired; an
      image without a `src` keeps having none. */
  lemma {:induction false} FixImagesSrcs(cs: seq<Node>)
    ensures SrcsRepairedFrom(cs, FixImages(cs))
    decreases cs
  {
    if cs != [] {
      FixImagesSrcs(cs[1..]);
      assert FixImages(cs)[1..] == FixImages(cs[1..]);
      if cs[0].Element? {
        FixImagesSrcs(cs[0].children);
      }
    }
  }

  // ---------------------------------------------------------------------------
  // The child filter (recover.py:144-205)
  // ---------------------------------------------------------------------------

  /** What becomes of one direct child of the container. */
  datatype Role =
    | Dropped         // left out of the body
    | Kept            // serialised into the body
    | HighlightBlock  // a `figure.highlight`, turned into a code block
    | PreBlock        // a bare `pre`, turned into a code block

  predicate IsCode(r: Role) {
    r.HighlightBlock? || r.PreBlock?
  }

  predicate IsHighlightFigure(n: Node) {
    IsTag(n, "figure") && HasClass(n, "highlight")
  }

  /** `tag.get('class')` is truthy: a non-empty class list. */
  predicate HasClassList(n: Node) {
    n.Element? && n.classes.Some? && n.classes.value != []
  }

  /** Classes that mark a `div` as page furniture rather than post text. */
  const FurnitureClasses: set<string> := {"post-copyright", "tag_share", "pagination-post"}

  /** The role of a direct child of the container; `insideHighlight` says
      whether the container itself sits inside a `figure.highlight`. */
  function RoleOf(child: Node, insideHighlight: bool): (r: Role)
    ensures child.Text? ==> r == Dropped
    ensures IsHighlightFigure(child) ==> r == HighlightBlock
    ensures IsTag(child, "pre") ==> (r == PreBlock <==> !insideHighlight) && (insideHighlight ==> r == Dropped)
    ensures r == HighlightBlock ==> IsHighlightFigure(child)
    ensures r == PreBlock ==> IsTag(child, "pre")
    ensures child.Element? && !IsHighlightFigure(child) && child.name !in {"pre", "div", "nav"} ==> r == Kept
    ensures !IsHighlightFigure(child) && (IsTag(child, "div") || IsTag(child, "nav")) ==>
              (r == Kept <==> !HasClassList(child) ||
                              (child.name == "div" && forall c :: c in child.classes.value ==> c !in FurnitureClasses))
    ensures IsTag(child, "nav") && HasClassList(child) ==> r == Dropped
  {
    if !child.Element? then Dropped
    else if IsHighlightFigure(child) then HighlightBlock
    else if child.name == "pre" then (if insideHighlight then Dropped else PreBlock)
    else if child.name !in {"div", "nav"} || !HasClassList(child) then Kept
    else if child.name == "div" && forall c :: c in child.classes.value ==> c !in FurnitureClasses then Kept
    else Dropped
  }

  /** The role depends only on the tag name and the class list. */
  lemma RoleOfSameTag(a: Node, b: Node, insideHighlight: bool)
    requires SameTag(a, b)
    ensures RoleOf(a, insideHighlight) == RoleOf(b, insideHighlight)
  {
  }

  // ---------------------------------------------------------------------------
  // Code blocks (recover.py:149-198)
  // ---------------------------------------------------------------------------

  const LanguagePrefix: string := "language-"

  /** The language of a highlight block: the last class that starts with
      `language-`, with every `language-` in it removed; `""` when there is
      no such class. */
  function LastLanguage(classes: seq<string>): (lang: string)
    ensures (forall i :: 0 <= i < |classes| ==> !IsPrefix(LanguagePrefix, classes[i])) ==> lang == ""
    ensures forall k :: IsLastLanguageClass(classes, k) ==> lang == ReplaceAll(classes[k], LanguagePrefix, "")
  {
    if classes == [] then ""
    else
      var last := classes[|classes| - 1];
      var init := classes[..|classes| - 1];
      if IsPrefix(LanguagePrefix, last) then
        LastIsLastLanguageClass(classes);
        ReplaceAll(last, LanguagePrefix, "")
      else
        LastLanguageSkip(classes);
        LastLanguage(init)
  }

  /** Class `k` is the last one that starts with `language-`. */
  ghost predicate IsLastLanguageClass(classes: seq<string>, k: int) {
    && 0 <= k < |classes|
    && IsPrefix(LanguagePrefix, classes[k])
    && forall j :: k < j < |classes| ==> !IsPrefix(LanguagePrefix, classes[j])
  }

  lemma LastIsLastLanguageClass(classes: seq<string>)
    requires classes != [] && IsPrefix(LanguagePrefix, classes[|classes| - 1])
    ensures forall k :: IsLastLanguageClass(classes, k) ==> classes[k] == classes[|classes| - 1]
  {
  }

  lemma LastLanguageSkip(classes: seq<string>)
    requires classes != [] && !IsPrefix(LanguagePrefix, classes[|classes| - 1])
    ensures forall k :: IsLastLanguageClass(classes, k) ==> IsLastLanguageClass(classes[..|classes| - 1], k)
    ensures forall k :: IsLastLanguageClass(classes, k) ==> classes[k] == classes[..|classes| - 1][k]
    ensures (forall i :: 0 <= i < |classes| - 1 ==> !IsPrefix(LanguagePrefix, classes[i])) ==>
              forall i :: 0 <= i < |classes| ==> !IsPrefix(LanguagePrefix, classes[i])
  {
    var init := classes[..|classes| - 1];
    assert forall i :: 0 <= i < |init| ==> init[i] == classes[i];
  }

  /** The usual case: a class `language-x` names the language `x`. */
  lemma LanguageOfClass(x: string)
    requires !Contains(x, LanguagePrefix)
    ensures LastLanguage([LanguagePrefix + x]) == x
  {
    var c := LanguagePrefix + x;
    assert IsPrefix(LanguagePrefix, c);
    assert OccursAt(c, LanguagePrefix, 0);
    ReplaceAtStart(c, LanguagePrefix, "");
    assert c[|LanguagePrefix|..] == x;
    ReplaceAbsent(x, LanguagePrefix, "");
  }

  function CodeLanguage(fig: Node): string {
    if fig.Element? && fig.classes.Some? then LastLanguage(fig.classes.value) else ""
  }

  /** The code of a highlight block: the `span.line` texts of the `pre` in
      its `td.code`, one per line; else the text of that `td.code`; else
      the text of its first `pre`; else its own text, pieces on separate
      lines. */
  function HighlightCode(fig: Node): string {
    match Find(fig, NamedWithClass("td", "code"))
    case Some(td) =>
      (match Find(td.node, Named("pre"))
       case Some(pre) => Join(EachText(FindAll(pre.node, NamedWithClass("span", "line"))), "\n")
       case None => GetText(td.node, "\n"))
    case None =>
      match Find(fig, Named("pre"))
      case Some(pre) => GetText(pre.node, "\n")
      case None => GetText(fig, "\n")
  }

  /** When the code comes from `span.line` elements whose texts hold no line
      break, splitting it on `\n` gives back those texts, one per span and
      in document order. */
  lemma HighlightLines(fig: Node, td: Hit, pre: Hit, spans: seq<Hit>)
    requires Find(fig, NamedWithClass("td", "code")) == Some(td)
    requires Find(td.node, Named("pre")) == Some(pre)
    requires spans == FindAll(pre.node, NamedWithClass("span", "line"))
    requires spans != [] && forall i :: 0 <= i < |spans| ==> '\n' !in GetText(spans[i].node, "")
    ensures Split(HighlightCode(fig), '\n') == EachText(spans)
  {
    var lines := EachText(spans);
    assert forall i :: 0 <= i < |lines| ==> '\n' !in lines[i];
    SplitJoin(lines, '\n');
    assert "\n" == ['\n'];
    assert HighlightCode(fig) == Join(lines, "\n");
  }

  /** A code block set aside: its placeholder, language and code. */
  datatype Block = Block(placeholder: string, lang: string, code: string)

  /** `f"__CODEBLOCK_{n}__"`. */
  function Placeholder(n: nat): (p: string)
    ensures |p| > 0
  {
    "__CODEBLOCK_" + NatToString(n) + "__"
  }

  /** Different counters give different placeholders. */
  lemma PlaceholderInjective(m: nat, n: nat)
    ensures Placeholder(m) == Placeholder(n) ==> m == n
  {
    if Placeholder(m) == Placeholder(n) {
      var pm := Placeholder(m);
      var pn := Placeholder(n);
      assert NatToString(m) == pm[12..|pm| - 2];
      assert NatToString(n) == pn[12..|pn| - 2];
      NatToStringInjective(m, n);
    }
  }

  /** `f"<p>{placeholder}</p>"`. */
  function Paragraph(p: string): string {
    "<p>" + p + "</p>"
  }

  /** The block for a code child numbered `n`. */
  function BlockOf(child: Node, role: Role, n: nat): Block
    requires IsCode(role)
  {
    if role.HighlightBlock? then Block(Placeholder(n), CodeLanguage(child), HighlightCode(child))
    else Block(Placeholder(n), "", GetText(child, "\n"))
  }

  /** How many of `cs` become code blocks. */
  function CodeCount(cs: seq<Node>, insideHighlight: bool): (k: nat)
    ensures k <= |cs|
  {
    if cs == [] then 0
    else (if IsCode(RoleOf(cs[0], insideHighlight)) then 1 else 0) + CodeCount(cs[1..], insideHighlight)
  }

  /** The children among `cs` that become code blocks, in order. */
  function CodeChildren(cs: seq<Node>, insideHighlight: bool): (code: seq<Node>)
    ensures |code| == CodeCount(cs, insideHighlight)
    ensures forall i :: 0 <= i < |code| ==> code[i] in cs && IsCode(RoleOf(code[i], insideHighlight))
  {
    if cs == [] then []
    else
      var rest := CodeChildren(cs[1..], insideHighlight);
      TailIndices(cs);
      if IsCode(RoleOf(cs[0], insideHighlight)) then
        ConsTail(cs[0], rest);
        [cs[0]] + rest
      else rest
  }

  /** Block `i` is the block of code child `code[i]`, numbered `n + i`. */
  ghost predicate BlocksFor(blocks: seq<Block>, code: seq<Node>, insideHighlight: bool, n: nat) {
    && |blocks| == |code|
    && forall i :: 0 <= i < |code| ==>
         IsCode(RoleOf(code[i], insideHighlight)) &&
         blocks[i] == BlockOf(code[i], RoleOf(code[i], insideHighlight), n + i)
  }

  /** The block of one more code child in front. */
  lemma BlocksPush(b: Block, c: Node, rest: seq<Block>, code: seq<Node>, insideHighlight: bool, n: nat)
    requires IsCode(RoleOf(c, insideHighlight)) && b == BlockOf(c, RoleOf(c, insideHighlight), n)
    requires BlocksFor(rest, code, insideHighlight, n + 1)
    ensures BlocksFor([b] + rest, [c] + code, insideHighlight, n)
  {
    forall i | 0 <= i < |code| + 1
      ensures IsCode(RoleOf(([c] + code)[i], insideHighlight))
      ensures ([b] + rest)[i] == BlockOf(([c] + code)[i], RoleOf(([c] + code)[i], insideHighlight), n + i)
    {
      if i > 0 {
        BlocksShift(b, c, rest, code, insideHighlight, n, i);
      } else {
        assert ([b] + rest)[0] == b && ([c] + code)[0] == c;
      }
    }
    assert |[b] + rest| == |[c] + code|;
  }

  /** Entry `i` of the longer lists is entry `i - 1` of the shorter ones. */
  lemma BlocksShift(b: Block, c: Node, rest: seq<Block>, code: seq<Node>, insideHighlight: bool, n: nat, i: nat)
    requires BlocksFor(rest, code, insideHighlight, n + 1)
    requires 0 < i < |code| + 1
    ensures IsCode(RoleOf(([c] + code)[i], insideHighlight))
    ensures ([b] + rest)[i] == BlockOf(([c] + code)[i], RoleOf(([c] + code)[i], insideHighlight), n + i)
  {
    var x := code[i - 1];
    var k := n + i;
    assert n + 1 + (i - 1) == k;
    ShiftIndex(b, rest, i);
    ShiftIndex(c, code, i);
    assert rest[i - 1] == BlockOf(x, RoleOf(x, insideHighlight), k);
  }

  /** Entry `i` of a list with one more element in front. */
  lemma ShiftIndex<T>(x: T, xs: seq<T>, i: nat)
    requires 0 < i <= |xs|
    ensures ([x] + xs)[i] == xs[i - 1]
  {
  }

  /** The HTML handed to the converter and the blocks set aside. */
  datatype Assembled = Assembled(html: string, blocks: seq<Block>)

  /** Block `i` carries the placeholder numbered `n + i`, and the paragraph
      holding that placeholder occurs in the HTML. */
  ghost predicate NumberedFrom(a: Assembled, n: nat) {
    forall i :: 0 <= i < |a.blocks| ==>
      a.blocks[i].placeholder == Placeholder(n + i) && Contains(a.html, Paragraph(a.blocks[i].placeholder))
  }

  /** The serialisation of every kept child occurs in `html`. */
  ghost predicate HoldsKept(html: string, cs: seq<Node>, insideHighlight: bool, serialize: Node -> string) {
    forall i :: 0 <= i < |cs| && RoleOf(cs[i], insideHighlight) == Kept ==> Contains(html, serialize(cs[i]))
  }

  /** The loop over the container's children, with the placeholder
      counter starting at `n`. What it yields is stated by `AssembleSpec`. */
  function Assemble(cs: seq<Node>, insideHighlight: bool, serialize: Node -> string, n: nat): Assembled
    decreases |cs|
  {
    if cs == [] then Assembled([], [])
    else
      var role := RoleOf(cs[0], insideHighlight);
      if IsCode(role) then
        var rest := Assemble(cs[1..], insideHighlight, serialize, n + 1);
        var b := BlockOf(cs[0], role, n);
        Assembled(Paragraph(b.placeholder) + rest.html, [b] + rest.blocks)
      else
        var rest := Assemble(cs[1..], insideHighlight, serialize, n);
        var head := if role == Kept then serialize(cs[0]) else "";
        Assembled(head + rest.html, rest.blocks)
  }

  /** Code children are numbered consecutively in document order and each
      gets its block, each leaves its placeholder paragraph in the HTML,
      kept children leave their serialisation, and a run of dropped
      children leaves nothing. */
  lemma {:induction false} AssembleSpec(cs: seq<Node>, insideHighlight: bool, serialize: Node -> string, n: nat)
    ensures var a := Assemble(cs, insideHighlight, serialize, n);
            && |a.blocks| == CodeCount(cs, insideHighlight)
            && BlocksFor(a.blocks, CodeChildren(cs, insideHighlight), insideHighlight, n)
            && NumberedFrom(a, n)
            && HoldsKept(a.html, cs, insideHighlight, serialize)
            && ((forall i :: 0 <= i < |cs| ==> RoleOf(cs[i], insideHighlight) == Dropped) ==> a == Assembled([], []))
    decreases |cs|
  {
    if cs != [] {
      var role := RoleOf(cs[0], insideHighlight);
      if IsCode(role) {
        AssembleSpec(cs[1..], insideHighlight, serialize, n + 1);
        var rest := Assemble(cs[1..], insideHighlight, serialize, n + 1);
        var b := BlockOf(cs[0], role, n);
        NumberedPush(b, rest, n);
        BlocksPush(b, cs[0], rest.blocks, CodeChildren(cs[1..], insideHighlight), insideHighlight, n);
        KeptStep(cs, insideHighlight, serialize, Paragraph(b.placeholder), rest.html);
      } else {
        AssembleSpec(cs[1..], insideHighlight, serialize, n);
        var rest := Assemble(cs[1..], insideHighlight, serialize, n);
        var head := if role == Kept then serialize(cs[0]) else "";
        NumberedPrefix(head, rest, n);
        KeptStep(cs, insideHighlight, serialize, head, rest.html);
        assert (forall i :: 0 <= i < |cs| ==> RoleOf(cs[i], insideHighlight) == Dropped) ==>
                 (forall i :: 0 <= i < |cs[1..]| ==> RoleOf(cs[1..][i], insideHighlight) == Dropped);
      }
    }
  }

  /** What one child contributes on its own: a code child its placeholder
      paragraph and its block numbered `n`, a kept child its serialisation,
      a dropped child nothing. */
  lemma AssembleOne(c: Node, insideHighlight: bool, serialize: Node -> string, n: nat)
    ensures var role := RoleOf(c, insideHighlight);
            Assemble([c], insideHighlight, serialize, n) ==
              if IsCode(role) then Assembled(Paragraph(Placeholder(n)), [BlockOf(c, role, n)])
              else if role == Kept then Assembled(serialize(c), [])
              else Assembled([], [])
  {
    assert [c][1..] == [];
  }

  /** The children are handled left to right: the HTML and the blocks of a
      list of children are those of its front part followed by those of the
      rest, whose numbering continues at `k`, where the front part stopped. */
  lemma {:induction false} AssembleAppend(c1: seq<Node>, c2: seq<Node>, insideHighlight: bool,
                                          serialize: Node -> string, n: nat, k: nat)
    requires k == n + CodeCount(c1, insideHighlight)
    ensures Assemble(c1 + c2, insideHighlight, serialize, n).html
            == Assemble(c1, insideHighlight, serialize, n).html + Assemble(c2, insideHighlight, serialize, k).html
    ensures Assemble(c1 + c2, insideHighlight, serialize, n).blocks
            == Assemble(c1, insideHighlight, serialize, n).blocks + Assemble(c2, insideHighlight, serialize, k).blocks
    decreases |c1|
  {
    if c1 == [] {
      assert c1 + c2 == c2;
    } else {
      var c := c1[0];
      var role := RoleOf(c, insideHighlight);
      var m: nat := if IsCode(role) then n + 1 else n;
      var t := c1[1..];
      var head := if IsCode(role) then Paragraph(Placeholder(n)) else if role == Kept then serialize(c) else [];
      var hb := if IsCode(role) then [BlockOf(c, role, n)] else [];
      var tc := (c1 + c2)[1..];
      assert tc == t + c2 && (c1 + c2)[0] == c;
      CodeCountStep(c1, insideHighlight);
      AssembleAppend(t, c2, insideHighlight, serialize, m, k);
      AssembleStep(c1, insideHighlight, serialize, n, m, head, hb);
      AssembleStep(c1 + c2, insideHighlight, serialize, n, m, head, hb);
      AssembledGlue(Assemble(c1 + c2, insideHighlight, serialize, n), Assemble(c1, insideHighlight, serialize, n),
                    Assemble(tc, insideHighlight, serialize, m), Assemble(t, insideHighlight, serialize, m),
                    Assemble(c2, insideHighlight, serialize, k), head, hb);
    }
  }

  lemma CodeCountStep(cs: seq<Node>, insideHighlight: bool)
    requires cs != []
    ensures CodeCount(cs, insideHighlight)
            == (if IsCode(RoleOf(cs[0], insideHighlight)) then 1 else 0) + CodeCount(cs[1..], insideHighlight)
  {
  }

  lemma AssembledGlue(whole: Assembled, first: Assembled, tail: Assembled, r1: Assembled, a2: Assembled,
                      head: string, hb: seq<Block>)
    requires whole == Assembled(head + tail.html, hb + tail.blocks)
    requires first == Assembled(head + r1.html, hb + r1.blocks)
    requires tail == Assembled(r1.html + a2.html, r1.blocks + a2.blocks)
    ensures whole == Assembled(first.html + a2.html, first.blocks + a2.blocks)
    ensures |first.blocks| == |hb| + |r1.blocks|
  {
    AppendAssoc(head, r1.html, a2.html);
    AppendAssoc(hb, r1.blocks, a2.blocks);
  }

  /** One step of the loop: the first child's contribution in front of the
      rest's. */
  lemma AssembleStep(cs: seq<Node>, insideHighlight: bool, serialize: Node -> string, n: nat, m: nat,
                     head: string, hb: seq<Block>)
    requires cs != []
    requires var role := RoleOf(cs[0], insideHighlight);
             && m == (if IsCode(role) then n + 1 else n)
             && head == (if IsCode(role) then Paragraph(Placeholder(n)) else if role == Kept then serialize(cs[0]) else [])
             && hb == (if IsCode(role) then [BlockOf(cs[0], role, n)] else [])
    ensures Assemble(cs, insideHighlight, serialize, n)
            == Assembled(head + Assemble(cs[1..], insideHighlight, serialize, m).html,
                         hb + Assemble(cs[1..], insideHighlight, serialize, m).blocks)
  {
    if !IsCode(RoleOf(cs[0], insideHighlight)) {
      assert [] + Assemble(cs[1..], insideHighlight, serialize, n).blocks == Assemble(cs[1..], insideHighlight, serialize, n).blocks;
    }
  }

  /** Putting a code block, numbered `n`, in front of blocks numbered from
      `n + 1`. */
  lemma NumberedPush(b: Block, rest: Assembled, n: nat)
    requires b.placeholder == Placeholder(n)
    requires NumberedFrom(rest, n + 1)
    ensures NumberedFrom(Assembled(Paragraph(b.placeholder) + rest.html, [b] + rest.blocks), n)
  {
    var a := Assembled(Paragraph(b.placeholder) + rest.html, [b] + rest.blocks);
    ContainsSelf(Paragraph(b.placeholder));
    ContainsInfix([], Paragraph(b.placeholder), rest.html, Paragraph(b.placeholder));
    assert [] + Paragraph(b.placeholder) + rest.html == a.html;
    forall i | 0 < i < |a.blocks|
      ensures a.blocks[i].placeholder == Placeholder(n + i) && Contains(a.html, Paragraph(a.blocks[i].placeholder))
    {
      assert a.blocks[i] == rest.blocks[i - 1];
      assert n + 1 + (i - 1) == n + i;
      ContainsInfix(Paragraph(b.placeholder), rest.html, [], Paragraph(rest.blocks[i - 1].placeholder));
      assert Paragraph(b.placeholder) + rest.html + [] == a.html;
    }
  }

  /** Putting text that holds no block in front of the HTML. */
  lemma NumberedPrefix(head: string, rest: Assembled, n: nat)
    requires NumberedFrom(rest, n)
    ensures NumberedFrom(Assembled(head + rest.html, rest.blocks), n)
  {
    forall i | 0 <= i < |rest.blocks|
      ensures Contains(head + rest.html, Paragraph(rest.blocks[i].placeholder))
    {
      ContainsInfix(head, rest.html, [], Paragraph(rest.blocks[i].placeholder));
      assert head + rest.html + [] == head + rest.html;
    }
  }

  /** The first child's own text in front of the rest's HTML. */
  lemma KeptStep(cs: seq<Node>, insideHighlight: bool, serialize: Node -> string, head: string, html: string)
    requires cs != []
    requires RoleOf(cs[0], insideHighlight) == Kept ==> head == serialize(cs[0])
    requires HoldsKept(html, cs[1..], insideHighlight, serialize)
    ensures HoldsKept(head + html, cs, insideHighlight, serialize)
  {
    forall i | 0 <= i < |cs| && RoleOf(cs[i], insideHighlight) == Kept
      ensures Contains(head + html, serialize(cs[i]))
    {
      if i == 0 {
        ContainsSelf(head);
        ContainsInfix([], head, html, head);
        assert [] + head + html == head + html;
      } else {
        assert cs[i] == cs[1..][i - 1];
        ContainsInfix(head, html, [], serialize(cs[i]));
        assert head + html + [] == head + html;
      }
    }
  }

  /** `if not content_html.strip()`: a blank body is extended with the
      serialisation of every `p` below the container. */
  function WithFallback(html: string, container: Node, serialize: Node -> string): (r: string)
    ensures IsPrefix(html, r)
    ensures Strip(html) != [] ==> r == html
    ensures Strip(html) == [] ==>
              forall h :: h in FindAll(container, Named("p")) ==> Contains(r, serialize(h.node))
    ensures Strip(html) == [] ==> r == html + Concat(SerializeEach(FindAll(container, Named("p")), serialize))
  {
    if Strip(html) != [] then html
    else
      var ps := FindAll(container, Named("p"));
      var parts := SerializeEach(ps, serialize);
      var r := html + Concat(parts);
      assert forall h :: h in ps ==> Contains(r, serialize(h.node)) by {
        forall h | h in ps
          ensures Contains(r, serialize(h.node))
        {
          var i :| 0 <= i < |ps| && ps[i] == h;
          JoinContainsPart(parts, "", i);
          ContainsInfix(html, Concat(parts), [], serialize(h.node));
          assert html + Concat(parts) + [] == r;
        }
      }
      r
  }

  /** The fallback text of the paragraphs is that of the first ones followed
      by that of the rest: the paragraphs are appended one by one in
      document order, with nothing in between. */
  lemma FallbackAppend(ps: seq<Hit>, qs: seq<Hit>, serialize: Node -> string)
    ensures Concat(SerializeEach(ps + qs, serialize))
            == Concat(SerializeEach(ps, serialize)) + Concat(SerializeEach(qs, serialize))
  {
    var a := SerializeEach(ps, serialize);
    var b := SerializeEach(qs, serialize);
    var c := SerializeEach(ps + qs, serialize);
    assert |c| == |a + b|;
    forall i | 0 <= i < |c|
      ensures c[i] == (a + b)[i]
    {
      if i < |ps| {
        assert (ps + qs)[i] == ps[i];
      } else {
        assert (ps + qs)[i] == qs[i - |ps|];
      }
    }
    assert c == a + b;
    ConcatAppend(a, b);
  }

  /** One paragraph contributes exactly its own serialisation. */
  lemma FallbackOne(h: Hit, serialize: Node -> string)
    ensures Concat(SerializeEach([h], serialize)) == serialize(h.node)
  {
  }

  /** `[str(h) for h in hits]`. */
  function SerializeEach(hits: seq<Hit>, serialize: Node -> string): (r: seq<string>)
    ensures |r| == |hits|
    ensures forall i :: 0 <= i < |hits| ==> r[i] == serialize(hits[i].node)
  {
    if hits == [] then [] else [serialize(hits[0].node)] + SerializeEach(hits[1..], serialize)
  }

  // ---------------------------------------------------------------------------
  // Placeholder substitution (recover.py:221-227)
  // ---------------------------------------------------------------------------

  /** The fenced Markdown code block for `b`; the language is written after
      the opening fence, which is bare when there is none. */
  function Fence(b: Block): (r: string)
    ensures r == "```" + b.lang + "\n" + b.code + "\n```"
  {
    if b.lang != "" then "```" + b.lang + "\n" + b.code + "\n```"
    else "```\n" + b.code + "\n```"
  }

  /** Each placeholder in turn is replaced everywhere by its fenced block. */
  function ReplaceBlocks(md: string, blocks: seq<Block>): (r: string)
    requires forall i :: 0 <= i < |blocks| ==> blocks[i].placeholder != ""
    ensures (forall i :: 0 <= i < |blocks| ==> !Contains(md, blocks[i].placeholder)) ==> r == md
    decreases |blocks|
  {
    if blocks == [] then md
    else
      var next := ReplaceAll(md, blocks[0].placeholder, Fence(blocks[0]));
      assert !Contains(md, blocks[0].placeholder) ==> next == md by {
        if !Contains(md, blocks[0].placeholder) {
          ReplaceAbsent(md, blocks[0].placeholder, Fence(blocks[0]));
        }
      }
      ReplaceBlocks(next, blocks[1..])
  }

  /** A placeholder that occurs once in the converter's output is replaced
      by its fenced block and nothing around it changes. */
  lemma ReplaceOnePlaceholder(before: string, after: string, b: Block)
    requires b.placeholder != ""
    requires IndexOf(before + b.placeholder + after, b.placeholder) == Some(|before|)
    requires !Contains(after, b.placeholder)
    ensures ReplaceBlocks(before + b.placeholder + after, [b]) == before + Fence(b) + after
  {
    ReplaceAtFirst(before, b.placeholder, after, Fence(b));
    ReplaceAbsent(after, b.placeholder, Fence(b));
  }

  /** The placeholders of `blocks`, in order. */
  function Holes(blocks: seq<Block>): (hs: seq<string>)
    ensures |hs| == |blocks| && forall i :: 0 <= i < |blocks| ==> hs[i] == blocks[i].placeholder
  {
    seq(|blocks|, i requires 0 <= i < |blocks| => blocks[i].placeholder)
  }

  /** The fenced blocks of `blocks`, in order. */
  function Fences(blocks: seq<Block>): (fs: seq<string>)
    ensures |fs| == |blocks| && forall i :: 0 <= i < |blocks| ==> fs[i] == Fence(blocks[i])
  {
    seq(|blocks|, i requires 0 <= i < |blocks| => Fence(blocks[i]))
  }

  /** The converted text after the first `j` placeholders have been
      replaced: fences in the first `j` slots, placeholders in the rest. */
  function Stage(segs: seq<string>, blocks: seq<Block>, j: nat): string
    requires |segs| == |blocks| + 1 && j <= |blocks|
  {
    Weave(segs, Fences(blocks[..j]) + Holes(blocks[j..]))
  }

  /** When its turn comes, placeholder `j` occurs only in its own slot: no
      occurrence starts before the slot (in the text or the fences already
      put in, or straddling into the slot) and none lies after it. */
  predicate OnlyAtSlot(segs: seq<string>, blocks: seq<Block>, j: nat)
    requires |segs| == |blocks| + 1 && j < |blocks|
  {
    var ph := blocks[j].placeholder;
    var pre := Weave(segs[..j + 1], Fences(blocks[..j]));
    var post := Weave(segs[j + 1..], Holes(blocks[j + 1..]));
    && (forall k :: 0 <= k < |pre| ==> !OccursAt(pre + ph + post, ph, k))
    && !Contains(post, ph)
  }

  /** Stage `j` cut around slot `j`. */
  lemma StageSplit(segs: seq<string>, blocks: seq<Block>, j: nat, x: string)
    requires |segs| == |blocks| + 1 && j < |blocks|
    ensures Weave(segs, Fences(blocks[..j]) + [x] + Holes(blocks[j + 1..]))
            == Weave(segs[..j + 1], Fences(blocks[..j])) + x + Weave(segs[j + 1..], Holes(blocks[j + 1..]))
  {
    var xs := Fences(blocks[..j]) + [x] + Holes(blocks[j + 1..]);
    WeaveSplit(segs, xs, j);
    assert xs[..j] == Fences(blocks[..j]);
    assert xs[j + 1..] == Holes(blocks[j + 1..]);
  }

  /** Stages `j` and `j + 1` differ only in slot `j`. */
  lemma StagesAround(segs: seq<string>, blocks: seq<Block>, j: nat)
    requires |segs| == |blocks| + 1 && j < |blocks|
    ensures var pre := Weave(segs[..j + 1], Fences(blocks[..j]));
            var post := Weave(segs[j + 1..], Holes(blocks[j + 1..]));
            && Stage(segs, blocks, j) == pre + blocks[j].placeholder + post
            && Stage(segs, blocks, j + 1) == pre + Fence(blocks[j]) + post
  {
    var b := blocks[j];
    assert Holes(blocks[j..]) == [b.placeholder] + Holes(blocks[j + 1..]);
    assert Fences(blocks[..j]) + Holes(blocks[j..]) == Fences(blocks[..j]) + [b.placeholder] + Holes(blocks[j + 1..]);
    StageSplit(segs, blocks, j, b.placeholder);
    assert Fences(blocks[..j + 1]) == Fences(blocks[..j]) + [Fence(b)];
    assert Fences(blocks[..j + 1]) + Holes(blocks[j + 1..]) == Fences(blocks[..j]) + [Fence(b)] + Holes(blocks[j + 1..]);
    StageSplit(segs, blocks, j, Fence(b));
  }

  /** Replacing placeholder `j` turns stage `j` into stage `j + 1`. */
  lemma ReplaceStage(segs: seq<string>, blocks: seq<Block>, j: nat)
    requires |segs| == |blocks| + 1 && j < |blocks|
    requires blocks[j].placeholder != ""
    requires OnlyAtSlot(segs, blocks, j)
    ensures ReplaceAll(Stage(segs, blocks, j), blocks[j].placeholder, Fence(blocks[j])) == Stage(segs, blocks, j + 1)
  {
    var b := blocks[j];
    var pre := Weave(segs[..j + 1], Fences(blocks[..j]));
    var post := Weave(segs[j + 1..], Holes(blocks[j + 1..]));
    StagesAround(segs, blocks, j);
    ReplaceAtFirst(pre, b.placeholder, post, Fence(b));
    ReplaceAbsent(post, b.placeholder, Fence(b));
  }

  /** Replacing the placeholders from `j` on, in turn, finishes the job. */
  lemma {:induction false} ReplaceFrom(segs: seq<string>, blocks: seq<Block>, j: nat)
    requires |segs| == |blocks| + 1 && j <= |blocks|
    requires forall i :: 0 <= i < |blocks| ==> blocks[i].placeholder != ""
    requires forall i :: j <= i < |blocks| ==> OnlyAtSlot(segs, blocks, i)
    ensures ReplaceBlocks(Stage(segs, blocks, j), blocks[j..]) == Stage(segs, blocks, |blocks|)
    decreases |blocks| - j
  {
    if j < |blocks| {
      ReplaceStage(segs, blocks, j);
      ReplaceFrom(segs, blocks, j + 1);
      assert blocks[j..][0] == blocks[j] && blocks[j..][1..] == blocks[j + 1..];
    }
  }

  /** The converter's output as text with the placeholders in slots: when
      each placeholder, at its turn, occurs only in its own slot, every slot
      ends up holding its fenced block and the text around the slots is
      unchanged. */
  lemma ReplaceWoven(segs: seq<string>, blocks: seq<Block>)
    requires |segs| == |blocks| + 1
    requires forall i :: 0 <= i < |blocks| ==> blocks[i].placeholder != ""
    requires forall i :: 0 <= i < |blocks| ==> OnlyAtSlot(segs, blocks, i)
    ensures ReplaceBlocks(Weave(segs, Holes(blocks)), blocks) == Weave(segs, Fences(blocks))
  {
    ReplaceFrom(segs, blocks, 0);
    assert blocks[..0] == [] && blocks[0..] == blocks && blocks[..|blocks|] == blocks;
    assert Fences(blocks[..0]) + Holes(blocks[0..]) == Holes(blocks);
    assert Fences(blocks[..|blocks|]) + Holes(blocks[|blocks|..]) == Fences(blocks);
  }

  /** `FillBlocks` on such a text: the fences in their slots, stripped. */
  lemma FillWoven(segs: seq<string>, blocks: seq<Block>)
    requires |segs| == |blocks| + 1
    requires forall i :: 0 <= i < |blocks| ==> blocks[i].placeholder != ""
    requires forall i :: 0 <= i < |blocks| ==> OnlyAtSlot(segs, blocks, i)
    ensures FillBlocks(Weave(segs, Holes(blocks)), blocks) == Strip(Weave(segs, Fences(blocks)))
  {
    ReplaceWoven(segs, blocks);
  }

  // ---------------------------------------------------------------------------
  // extract_content
  // ---------------------------------------------------------------------------

  /** The filter `find('article', class_='container post-content')`: the
      class attribute must be exactly those two classes. */
  function ArticleContainer(): Node -> bool {
    n => IsTag(n, "article") && n.classes == Some(["container", "post-content"])
  }

  /** Some node among `nodes` is a `figure.highlight`. */
  predicate AnyHighlight(nodes: seq<Node>) {
    exists i :: 0 <= i < |nodes| && IsHighlightFigure(nodes[i])
  }

  function ChildrenOf(n: Node): seq<Node> {
    if n.Element? then n.children else []
  }

  /** The assembled HTML and blocks for the container found at `h`. */
  function AssembleContainer(h: Hit, serialize: Node -> string): (a: Assembled)
    ensures forall i :: 0 <= i < |a.blocks| ==> a.blocks[i].placeholder == Placeholder(i)
  {
    var a := Assemble(ChildrenOf(FixContainerImages(h.node)), AnyHighlight([h.node] + h.ancestors), serialize, 0);
    AssembleSpec(ChildrenOf(FixContainerImages(h.node)), AnyHighlight([h.node] + h.ancestors), serialize, 0);
    assert forall i :: 0 <= i < |a.blocks| ==> a.blocks[i].placeholder == Placeholder(0 + i);
    a
  }

  /** `extract_content(soup)`. */
  function ExtractContent(doc: Node, conv: Converter): (r: string)
    ensures Find(doc, ArticleContainer()).None? ==> r == ""
    ensures Trimmed(r)
    ensures Find(doc, ArticleContainer()).Some? ==>
              var h := Find(doc, ArticleContainer()).value;
              var a := AssembleContainer(h, conv.serialize);
              var md := conv.toMarkdown(WithFallback(a.html, FixContainerImages(h.node), conv.serialize));
              (forall i :: 0 <= i < |a.blocks| ==> !Contains(md, Placeholder(i))) ==> r == Strip(md)
  {
    match Find(doc, ArticleContainer())
    case None => ""
    case Some(h) =>
      var container := FixContainerImages(h.node);
      var a := AssembleContainer(h, conv.serialize);
      var md := conv.toMarkdown(WithFallback(a.html, container, conv.serialize));
      FillBlocks(md, a.blocks)
  }

  /** When the converter hands back text in which each placeholder, at its
      turn, occurs only in its own slot, the post body is that text with
      every slot holding its fenced block, in document order, stripped. */
  lemma ExtractContentWoven(doc: Node, conv: Converter, h: Hit, a: Assembled, md: string, segs: seq<string>)
    requires Find(doc, ArticleContainer()) == Some(h)
    requires a == AssembleContainer(h, conv.serialize)
    requires md == conv.toMarkdown(WithFallback(a.html, FixContainerImages(h.node), conv.serialize))
    requires |segs| == |a.blocks| + 1 && md == Weave(segs, Holes(a.blocks))
    requires forall i :: 0 <= i < |a.blocks| ==> OnlyAtSlot(segs, a.blocks, i)
    ensures ExtractContent(doc, conv) == Strip(Weave(segs, Fences(a.blocks)))
  {
    ExtractContentFill(doc, conv, h, a, md);
    FillWovenText(ExtractContent(doc, conv), md, segs, a.blocks);
  }

  lemma FillWovenText(e: string, md: string, segs: seq<string>, blocks: seq<Block>)
    requires |segs| == |blocks| + 1
    requires forall i :: 0 <= i < |blocks| ==> blocks[i].placeholder != ""
    requires forall i :: 0 <= i < |blocks| ==> OnlyAtSlot(segs, blocks, i)
    requires md == Weave(segs, Holes(blocks)) && e == FillBlocks(md, blocks)
    ensures e == Strip(Weave(segs, Fences(blocks)))
  {
    FillWoven(segs, blocks);
  }

  /** With the container found, the post body is `FillBlocks` of the
      converted text. */
  lemma ExtractContentFill(doc: Node, conv: Converter, h: Hit, a: Assembled, md: string)
    requires Find(doc, ArticleContainer()) == Some(h)
    requires a == AssembleContainer(h, conv.serialize)
    requires md == conv.toMarkdown(WithFallback(a.html, FixContainerImages(h.node), conv.serialize))
    ensures forall i :: 0 <= i < |a.blocks| ==> a.blocks[i].placeholder != ""
    ensures ExtractContent(doc, conv) == FillBlocks(md, a.blocks)
  {
  }

  /** The converted text with every placeholder replaced by its fenced
      block, stripped at both ends. */
  function FillBlocks(md: string, blocks: seq<Block>): (r: string)
    requires forall i :: 0 <= i < |blocks| ==> blocks[i].placeholder != ""
    ensures Trimmed(r)
    ensures (forall i :: 0 <= i < |blocks| ==> !Contains(md, blocks[i].placeholder)) ==> r == Strip(md)
  {
    Strip(ReplaceBlocks(md, blocks))
  }
}

=== FILE: dom.dfy ===
/**
 An already-parsed HTML document, and the handful of queries the recovery
 script makes of it: `find`, `find_all`, `get`, `get_text` and `find_parent`.
 The parser itself is not modelled; a document is any tree of these nodes.
 */
module Dom {
  import opened Wrappers
  import opened Strings

  /** A text node, or an element with its tag name, its class list (a
      `class` attribute split on whitespace, `None` when there is no `class`
      attribute), its other attributes and its children in document order. */
  datatype Node =
    | Text(content: string)
    | Element(name: string, classes: Option<seq<string>>, attrs: map<string, string>, children: seq<Node>)

  /** A node met during a document-order walk, with its ancestors, nearest first. */
  datatype Hit = Hit(node: Node, ancestors: seq<Node>)

  /** Every node below the nodes `cs` (including them), in document order:
      a node comes before its children, and its children before its later
      siblings. `ancestors` are the ancestors shared by all of `cs`. */
  function Walk(cs: seq<Node>, ancestors: seq<Node>): (hits: seq<Hit>)
    ensures |hits| >= |cs|
    decreases cs
  {
    if cs == [] then []
    else
      var below := match cs[0]
        case Text(_) => []
        case Element(_, _, _, kids) => Walk(kids, [cs[0]] + ancestors);
      [Hit(cs[0], ancestors)] + below + Walk(cs[1..], ancestors)
  }

  /** Every descendant of `n` (not `n` itself), in document order, which is
      the order `find` and `find_all` search in. */
  function Descendants(n: Node): seq<Hit> {
    match n
    case Text(_) => []
    case Element(_, _, _, cs) => Walk(cs, [n])
  }

  predicate IsTag(n: Node, name: string) {
    n.Element? && n.name == name
  }

  /** The `class_=c` filter for a single class name: one of the classes is `c`. */
  predicate HasClass(n: Node, c: string) {
    n.Element? && n.classes.Some? && c in n.classes.value
  }

  /** `tag.get(key)`: the attribute's value, or `None`. */
  function Attr(n: Node, key: string): Option<string> {
    if n.Element? && key in n.attrs then Some(n.attrs[key]) else None
  }

  /** `tag.get(key)` is truthy: present and not the empty string. */
  predicate HasNonEmptyAttr(n: Node, key: string) {
    Attr(n, key).Some? && Attr(n, key).value != ""
  }

  /** The filter `find(name)`: elements with that tag name. */
  function Named(name: string): Node -> bool {
    n => IsTag(n, name)
  }

  /** The filter `find(name, class_=c)` for a single class name `c`. */
  function NamedWithClass(name: string, c: string): Node -> bool {
    n => IsTag(n, name) && HasClass(n, c)
  }

  /** The hits whose node satisfies `p`, in the same order. */
  function Select(hits: seq<Hit>, p: Node -> bool): (r: seq<Hit>)
    ensures |r| <= |hits|
    ensures forall i :: 0 <= i < |r| ==> r[i] in hits && p(r[i].node)
    ensures forall i :: 0 <= i < |hits| && p(hits[i].node) ==> hits[i] in r
    ensures r == [] ==> forall i :: 0 <= i < |hits| ==> !p(hits[i].node)
    ensures r != [] && p(hits[0].node) ==> r[0] == hits[0]
  {
    if hits == [] then []
    else if p(hits[0].node) then [hits[0]] + Select(hits[1..], p)
    else Select(hits[1..], p)
  }

  /** The first hit selected is the first hit satisfying `p`. */
  lemma {:induction false} SelectFirst(hits: seq<Hit>, p: Node -> bool)
    requires Select(hits, p) != []
    ensures exists k :: 0 <= k < |hits| && hits[k] == Select(hits, p)[0] && forall i :: 0 <= i < k ==> !p(hits[i].node)
    decreases hits
  {
    if !p(hits[0].node) {
      SelectFirst(hits[1..], p);
      var k :| 0 <= k < |hits[1..]| && hits[1..][k] == Select(hits, p)[0] && forall i :: 0 <= i < k ==> !p(hits[1..][i].node);
      assert hits[k + 1] == Select(hits, p)[0];
      forall i | 0 <= i < k + 1
        ensures !p(hits[i].node)
      {
        if i > 0 {
          assert hits[i] == hits[1..][i - 1];
        }
      }
    } else {
      assert hits[0] == Select(hits, p)[0];
    }
  }

  /** Selecting from a concatenation selects from each part, in order;
      with `SelectOne` this pins `find_all` down to the order-keeping
      filter. */
  lemma {:induction false} SelectAppend(a: seq<Hit>, b: seq<Hit>, p: Node -> bool)
    ensures Select(a + b, p) == Select(a, p) + Select(b, p)
    decreases a
  {
    if a == [] {
      assert a + b == b;
    } else {
      var rest := a[1..];
      assert a == [a[0]] + rest;
      assert a + b == [a[0]] + (rest + b);
      SelectCons(a[0], rest, p);
      SelectCons(a[0], rest + b, p);
      SelectAppend(rest, b, p);
      AppendAssoc(if p(a[0].node) then [a[0]] else [], Select(rest, p), Select(b, p));
    }
  }

  /** Selecting from a list with a first element. */
  lemma SelectCons(h: Hit, rest: seq<Hit>, p: Node -> bool)
    ensures Select([h] + rest, p) == (if p(h.node) then [h] else []) + Select(rest, p)
  {
    ConsTail(h, rest);
  }

  /** A single hit is selected exactly when it satisfies `p`. */
  lemma SelectOne(h: Hit, p: Node -> bool)
    ensures Select([h], p) == if p(h.node) then [h] else []
  {
    assert [h][1..] == [];
  }

  /** `n.find_all(...)` for the filter `p`. */
  function FindAll(n: Node, p: Node -> bool): seq<Hit> {
    Select(Descendants(n), p)
  }

  /** `n.find(...)` for the filter `p`: the first match in document order. */
  function Find(n: Node, p: Node -> bool): (r: Option<Hit>)
    ensures r.None? <==> forall i :: 0 <= i < |Descendants(n)| ==> !p(Descendants(n)[i].node)
    ensures r.Some? ==> r.value in Descendants(n) && p(r.value.node)
    ensures r.Some? ==> exists k :: 0 <= k < |Descendants(n)| && Descendants(n)[k] == r.value
                                  && forall i :: 0 <= i < k ==> !p(Descendants(n)[i].node)
  {
    var all := FindAll(n, p);
    if all == [] then None
    else
      SelectFirst(Descendants(n), p);
      Some(all[0])
  }

  /** The text nodes among `hits`, in order. */
  function TextsOf(hits: seq<Hit>): seq<string> {
    if hits == [] then []
    else if hits[0].node.Text? then [hits[0].node.content] + TextsOf(hits[1..])
    else TextsOf(hits[1..])
  }

  /** `n.get_text(sep)`: the text below `n`, pieces joined by `sep`. */
  function GetText(n: Node, sep: string): string {
    Join(TextsOf(Descendants(n)), sep)
  }

  /** `[h.get_text() for h in hits]`. */
  function EachText(hits: seq<Hit>): (r: seq<string>)
    ensures |r| == |hits|
    ensures forall i :: 0 <= i < |hits| ==> r[i] == GetText(hits[i].node, "")
  {
    if hits == [] then [] else [GetText(hits[0].node, "")] + EachText(hits[1..])
  }
}

=== FILE: filename.dfy ===
/**
 The output file name of a recovered post: the title made safe for a file
 system (`sanitize_filename`, recover.py:11-20) and the collision-free choice
 of `name`, `name_1`, `name_2`, ... among the files already written
 (recover.py:250-259).
 */
module Filename {
  import opened Strings
  import Metadata

  /** The characters `sanitize_filename` deletes: `<>:"/\|?*`. */
  predicate IsIllegal(c: char) {
    c == '<' || c == '>' || c == ':' || c == '"' || c == '/' || c == '\\' || c == '|' || c == '?' || c == '*'
  }

  /** Longest file name stem `sanitize_filename` returns. */
  const MaxLength: nat := 100


  // ---------------------------------------------------------------------------
  // sanitize_filename
  // ---------------------------------------------------------------------------

  /** `re.sub(r'[<>:"/\\|?*]', '', s)`: every illegal character deleted. */
  function RemoveIllegal(s: string): (r: string)
    ensures forall i :: 0 <= i < |r| ==> !IsIllegal(r[i])
    ensures forall i :: 0 <= i < |r| ==> r[i] in s
    ensures (forall i :: 0 <= i < |s| ==> !IsIllegal(s[i])) ==> r == s
    ensures Visible(r) == [] <==> forall i :: 0 <= i < |s| ==> IsIllegal(s[i]) || IsSpace(s[i])
  {
    if s == [] then []
    else
      var rest := RemoveIllegal(s[1..]);
      TailIndices(s);
      if IsIllegal(s[0]) then rest
      else
        ConsTail(s[0], rest);
        [s[0]] + rest
  }

  /** `re.sub(r'\s+', ' ', s)`: every maximal run of whitespace becomes one space. */
  function Collapse(s: string): (r: string)
    ensures |r| <= |s|
    ensures forall i :: 0 <= i < |r| && IsSpace(r[i]) ==> r[i] == ' '
    ensures NoAdjacentSpaces(r)
    ensures forall i :: 0 <= i < |r| ==> r[i] == ' ' || r[i] in s
    ensures Visible(r) == Visible(s)
    ensures (|r| > 0 && IsSpace(r[0])) <==> (|s| > 0 && IsSpace(s[0]))
    ensures r == [] <==> s == []
    ensures (|r| > 0 && IsSpace(r[|r| - 1])) <==> (|s| > 0 && IsSpace(s[|s| - 1]))
    decreases |s|
  {
    if s == [] then []
    else if IsSpace(s[0]) then
      var rest := Collapse(s[LeadLen(s)..]);
      CollapseRun(s, rest);
      RunEnds(s, rest);
      [' '] + rest
    else
      var rest := Collapse(s[1..]);
      CollapseKeep(s, rest);
      KeepEnds(s, rest);
      [s[0]] + rest
  }

  /** What `Collapse` promises about its result `r` for the input `s`. */
  ghost predicate CollapseOf(s: string, r: string) {
    && |r| <= |s|
    && (forall i :: 0 <= i < |r| && IsSpace(r[i]) ==> r[i] == ' ')
    && NoAdjacentSpaces(r)
    && (forall i :: 0 <= i < |r| ==> r[i] == ' ' || r[i] in s)
    && Visible(r) == Visible(s)
    && ((|r| > 0 && IsSpace(r[0])) <==> (|s| > 0 && IsSpace(s[0])))
  }

  /** `r` is empty exactly when `s` is, and ends in whitespace exactly when
      `s` does. */
  predicate SameEnds(s: string, r: string) {
    && (r == [] <==> s == [])
    && ((|r| > 0 && IsSpace(r[|r| - 1])) <==> (|s| > 0 && IsSpace(s[|s| - 1])))
  }

  /** A leading run of whitespace becomes one space in front of the rest. */
  lemma CollapseRun(s: string, rest: string)
    requires s != [] && IsSpace(s[0])
    requires CollapseOf(s[LeadLen(s)..], rest)
    ensures CollapseOf(s, [' '] + rest)
  {
    VisibleDropFront(s, LeadLen(s));
    ConsTail(' ', rest);
    SuffixMembers(s, LeadLen(s));
  }

  /** A run of whitespace in front keeps the ends: the whole is all
      whitespace when nothing follows the run. */
  lemma RunEnds(s: string, rest: string)
    requires s != [] && IsSpace(s[0])
    requires SameEnds(s[LeadLen(s)..], rest)
    ensures SameEnds(s, [' '] + rest)
  {
    var u := s[LeadLen(s)..];
    if u == [] {
      assert IsSpace(s[|s| - 1]);
    } else {
      assert s[|s| - 1] == u[|u| - 1];
      assert ([' '] + rest)[|rest|] == rest[|rest| - 1];
    }
  }

  /** A visible first character is kept in front of the rest. */
  lemma CollapseKeep(s: string, rest: string)
    requires s != [] && !IsSpace(s[0])
    requires CollapseOf(s[1..], rest)
    ensures CollapseOf(s, [s[0]] + rest)
  {
    ConsTail(s[0], rest);
    SuffixMembers(s, 1);
  }

  /** A visible character in front keeps the ends. */
  lemma KeepEnds(s: string, rest: string)
    requires s != [] && !IsSpace(s[0])
    requires SameEnds(s[1..], rest)
    ensures SameEnds(s, [s[0]] + rest)
  {
    if rest != [] {
      assert s[|s| - 1] == s[1..][|s| - 2];
      assert ([s[0]] + rest)[|rest|] == rest[|rest| - 1];
    }
  }

  /** Deleting characters works piece by piece: nothing is moved or added. */
  lemma {:induction false} RemoveIllegalAppend(a: string, b: string)
    ensures RemoveIllegal(a + b) == RemoveIllegal(a) + RemoveIllegal(b)
    decreases |a|
  {
    if a == [] {
      assert a + b == b;
    } else {
      assert (a + b)[1..] == a[1..] + b;
      assert (a + b)[0] == a[0];
      RemoveIllegalAppend(a[1..], b);
    }
  }

  /** One character is deleted exactly when it is illegal. */
  lemma RemoveIllegalOne(c: char)
    ensures RemoveIllegal([c]) == if IsIllegal(c) then [] else [c]
  {
    assert [c][1..] == [];
  }

  /** A visible first character is copied as it is. */
  lemma CollapseVisibleHead(t: string)
    requires t != [] && !IsSpace(t[0])
    ensures Collapse(t) == [t[0]] + Collapse(t[1..])
  {
  }

  lemma NoSpaceTail(t: string, w: nat)
    requires 0 < w <= |t|
    requires forall i :: 0 <= i < w ==> !IsSpace(t[i])
    ensures forall i :: 0 <= i < w - 1 ==> !IsSpace(t[1..][i])
  {
    assert forall i :: 0 <= i < w - 1 ==> t[1..][i] == t[i + 1];
  }

  /** A run of visible characters at the front is copied as it is. */
  lemma {:induction false} CollapseWord(t: string, w: nat)
    requires w <= |t|
    requires forall i :: 0 <= i < w ==> !IsSpace(t[i])
    ensures Collapse(t) == t[..w] + Collapse(t[w..])
    decreases w
  {
    if w == 0 {
      assert t[0..] == t;
    } else {
      CollapseVisibleHead(t);
      NoSpaceTail(t, w);
      CollapseWord(t[1..], w - 1);
      assert t[1..][w - 1..] == t[w..];
      PrependCut(t, w, Collapse(t[1..]), Collapse(t[w..]));
    }
  }

  /** `Collapse` of a string that does not start with whitespace is its words
      joined by single spaces, with one more space when it ends in whitespace. */
  lemma {:induction false} CollapseNoLead(t: string)
    requires t == [] || !IsSpace(t[0])
    ensures Trimmed(Join(Words(t), " "))
    ensures Join(Words(t), " ") == [] <==> t == []
    ensures Collapse(t) == Join(Words(t), " ") || Collapse(t) == Join(Words(t), " ") + " "
    decreases |t|
  {
    if t != [] {
      var k := WordLen(t);
      WordsFront(t);
      CollapseWord(t, k);
      var u := t[k..];
      if u != [] {
        var v := u[LeadLen(u)..];
        CollapseLead(u);
        WordsSkipSpace(u);
        CollapseNoLead(v);
        CollapseWordThenRest(t[..k], Words(v), Collapse(v));
      }
    }
  }

  /** The first word of a string that does not start with whitespace. */
  lemma WordsFront(t: string)
    requires t != [] && !IsSpace(t[0])
    ensures 0 < WordLen(t) && IsWord(t[..WordLen(t)])
    ensures Words(t) == [t[..WordLen(t)]] + Words(t[WordLen(t)..])
    ensures t[WordLen(t)..] == [] ==> Words(t) == [t[..WordLen(t)]]
  {
    assert LeadLen(t) == 0;
    assert t[0..] == t;
  }

  /** One word in front of a collapsed remainder. */
  lemma CollapseWordThenRest(w: string, ws: seq<string>, c: string)
    requires IsWord(w)
    requires Trimmed(Join(ws, " ")) && (Join(ws, " ") == [] <==> ws == [])
    requires c == Join(ws, " ") || c == Join(ws, " ") + " "
    requires ws == [] ==> c == []
    ensures Trimmed(Join([w] + ws, " ")) && Join([w] + ws, " ") != []
    ensures w + ([' '] + c) == Join([w] + ws, " ") || w + ([' '] + c) == Join([w] + ws, " ") + " "
  {
    var parts := [w] + ws;
    assert parts[0] == w;
    if ws == [] {
      assert parts == [w];
    } else {
      assert parts[1..] == ws;
      var j := Join(ws, " ");
      assert Join(parts, " ") == w + " " + j;
      assert (w + " " + j)[0] == w[0];
      assert (w + " " + j)[|w + " " + j| - 1] == j[|j| - 1];
    }
  }

  /** `' '.join(s.split())`: collapsing whitespace and stripping both ends
      leaves the words of `s` with one space between neighbours, so no word
      is dropped, split, merged or moved. */
  lemma CollapseWords(s: string)
    ensures Strip(Collapse(s)) == Join(Words(s), " ")
  {
    var v := s[LeadLen(s)..];
    var a: string := if s != [] && IsSpace(s[0]) then " " else [];
    var c := Collapse(v);
    var ws := Words(v);
    WordsSkipSpace(s);
    assert Words(s) == ws;
    CollapseLead(s);
    assert Collapse(s) == a + c;
    CollapseNoLead(v);
    StripSpaced(a, Join(ws, " "), c);
  }

  /** A leading run of whitespace becomes at most one space. */
  lemma CollapseLead(s: string)
    ensures Collapse(s) == (if s != [] && IsSpace(s[0]) then " " else []) + Collapse(s[LeadLen(s)..])
  {
    if s != [] && !IsSpace(s[0]) {
      assert s[0..] == s;
    }
  }

  /** Stripping a string that is `j`, with at most one space on either side,
      gives `j` back. */
  lemma StripSpaced(a: string, j: string, c: string)
    requires a == " " || a == []
    requires Trimmed(j)
    requires c == j || c == j + " "
    ensures Strip(a + c) == j
  {
    if c == j {
      StripFrame(a, j, []);
      assert a + j + [] == a + c;
    } else {
      StripFrame(a, j, " ");
      assert a + j + " " == a + c;
    }
  }

  /** The cleaned title is the words of the title, after the illegal
      characters are deleted, joined by single spaces. */
  lemma CleanedIsJoinedWords(title: string)
    ensures Cleaned(title) == Join(Words(RemoveIllegal(title)), " ")
  {
    CollapseWords(RemoveIllegal(title));
  }

  /** The title with illegal characters removed, whitespace collapsed and
      both ends stripped, before the length cap. */
  function Cleaned(title: string): string {
    Strip(Collapse(RemoveIllegal(title)))
  }

  /** The shape of a sanitised name: no illegal character, whitespace only
      as single spaces. */
  ghost predicate Tidy(x: string) {
    && (forall i :: 0 <= i < |x| ==> !IsIllegal(x[i]) && (IsSpace(x[i]) ==> x[i] == ' '))
    && NoAdjacentSpaces(x)
  }

  /** `sanitize_filename(title)`. */
  function SanitizeFilename(title: string): (r: string)
    ensures |r| <= MaxLength
    ensures forall i :: 0 <= i < |r| ==> !IsIllegal(r[i])
    ensures forall i :: 0 <= i < |r| && IsSpace(r[i]) ==> r[i] == ' '
    ensures NoAdjacentSpaces(r)
    ensures r == [] || !IsSpace(r[0])
    ensures IsPrefix(r, Cleaned(title))
    ensures |Cleaned(title)| <= MaxLength ==> r == Cleaned(title)
    ensures |Cleaned(title)| > MaxLength ==> |r| == MaxLength
    ensures IsPrefix(Visible(r), Visible(RemoveIllegal(title)))
    ensures r == [] <==> forall i :: 0 <= i < |title| ==> IsIllegal(title[i]) || IsSpace(title[i])
  {
    var cleaned := Cleaned(title);
    var r := if |cleaned| > MaxLength then cleaned[..MaxLength] else cleaned;
    CleanedTidy(title);
    TidySlice(cleaned, 0, |r|);
    assert r == cleaned[..|r|];
    CleanedVisible(title, |r|);
    r
  }

  /** The cleaned title is tidy and does not start with whitespace. */
  lemma CleanedTidy(title: string)
    ensures Tidy(Cleaned(title))
    ensures Cleaned(title) == [] || !IsSpace(Cleaned(title)[0])
  {
    TidyCollapsed(title);
    TidyStripped(Collapse(RemoveIllegal(title)));
  }

  /** Stripping a tidy string keeps it tidy. */
  lemma TidyStripped(x: string)
    requires Tidy(x)
    ensures Tidy(Strip(x))
  {
    TidySlice(x, LeadLen(x), LeadLen(x) + |Strip(x)|);
  }

  /** Any run of a tidy string is tidy. */
  lemma TidySlice(x: string, i: nat, j: nat)
    requires Tidy(x) && i <= j <= |x|
    ensures Tidy(x[i..j])
  {
    var y := x[i..j];
    forall k | 0 <= k < |y|
      ensures y[k] == x[i + k]
    {
    }
    forall k, l | 0 <= k < l < |y| && l == k + 1
      ensures !(IsSpace(y[k]) && IsSpace(y[l]))
    {
      assert y[k] == x[i + k] && y[l] == x[i + l];
    }
  }

  /** A character of a string without illegal characters is legal. */
  lemma LegalMember(s: string, c: char)
    requires forall i :: 0 <= i < |s| ==> !IsIllegal(s[i])
    requires c in s
    ensures !IsIllegal(c)
  {
  }

  /** Removing illegal characters and collapsing whitespace makes any title tidy. */
  lemma TidyCollapsed(title: string)
    ensures Tidy(Collapse(RemoveIllegal(title)))
  {
    var kept := RemoveIllegal(title);
    var collapsed := Collapse(kept);
    assert NoAdjacentSpaces(collapsed);
    forall i | 0 <= i < |collapsed|
      ensures !IsIllegal(collapsed[i]) && (IsSpace(collapsed[i]) ==> collapsed[i] == ' ')
    {
      if collapsed[i] != ' ' {
        LegalMember(kept, collapsed[i]);
      }
    }
  }

  /** A prefix of the cleaned title keeps the title's visible characters in
      order, and the cleaned title is empty exactly when the title has no
      legal visible character. */
  lemma CleanedVisible(title: string, n: nat)
    requires n <= |Cleaned(title)|
    ensures IsPrefix(Visible(Cleaned(title)[..n]), Visible(RemoveIllegal(title)))
    ensures Cleaned(title) == [] <==> forall i :: 0 <= i < |title| ==> IsIllegal(title[i]) || IsSpace(title[i])
  {
    PrefixVisible(Cleaned(title)[..n], Cleaned(title));
    CleanedEmptyIff(title);
  }

  /** The cleaned title is empty exactly when it has no visible character. */
  lemma CleanedEmptyIff(title: string)
    ensures Cleaned(title) == [] <==> Visible(RemoveIllegal(title)) == []
  {
    var cleaned := Cleaned(title);
    if cleaned != [] {
      assert Visible(cleaned)[0] == cleaned[0];
    }
  }


  // ---------------------------------------------------------------------------
  // Collision-free name choice
  // ---------------------------------------------------------------------------

  /** The stem `process_html_file` starts from: the sanitised title, or the
      placeholder when that is empty. */
  function BaseName(sanitized: string): (r: string)
    ensures r != []
    ensures sanitized != [] ==> r == sanitized
  {
    if sanitized == [] then Metadata.Untitled else sanitized
  }

  /** The `k`-th name the collision loop tries: `base`, `base_1`, `base_2`, ... */
  function Candidate(base: string, k: nat): string {
    if k == 0 then base else base + "_" + NatToString(k)
  }

  /** The file a name is written to in the posts directory. */
  function MarkdownFile(name: string): string {
    name + ".md"
  }

  /** No two candidates share a file. */
  lemma CandidateInjective(base: string, j: nat, k: nat)
    ensures MarkdownFile(Candidate(base, j)) == MarkdownFile(Candidate(base, k)) ==> j == k
  {
    var a, b := Candidate(base, j), Candidate(base, k);
    if MarkdownFile(a) == MarkdownFile(b) {
      assert a == MarkdownFile(a)[..|a|];
      assert |a| == |b|;
      assert a == b;
      if j != 0 && k != 0 {
        var n := |base| + 1;
        assert NatToString(j) == a[n..];
        assert NatToString(k) == b[n..];
        NatToStringInjective(j, k);
      }
    }
  }

  /** The files of the first `k` candidates. */
  function Probed(base: string, k: nat): set<string> {
    if k == 0 then {} else Probed(base, k - 1) + {MarkdownFile(Candidate(base, k - 1))}
  }

  lemma {:induction false} ProbedMembers(base: string, k: nat, x: string)
    ensures x in Probed(base, k) <==> exists j :: 0 <= j < k && x == MarkdownFile(Candidate(base, j))
  {
    if k > 0 {
      ProbedMembers(base, k - 1, x);
    }
  }

  lemma {:induction false} ProbedSize(base: string, k: nat)
    ensures |Probed(base, k)| == k
  {
    if k > 0 {
      ProbedSize(base, k - 1);
      var x := MarkdownFile(Candidate(base, k - 1));
      ProbedMembers(base, k - 1, x);
      if x in Probed(base, k - 1) {
        var j :| 0 <= j < k - 1 && x == MarkdownFile(Candidate(base, j));
        CandidateInjective(base, j, k - 1);
        assert false;
      }
    }
  }

  /** If the first `k` candidates are all taken, there are at least `k`
      existing files: this is what makes the probing loop stop. */
  lemma ProbedWithin(base: string, existing: set<string>, k: nat)
    requires forall j :: 0 <= j < k ==> MarkdownFile(Candidate(base, j)) in existing
    ensures k <= |existing|
  {
    forall x | x in Probed(base, k)
      ensures x in existing
    {
      ProbedMembers(base, k, x);
    }
    ProbedSize(base, k);
    assert existing == Probed(base, k) + (existing - Probed(base, k));
    assert |existing| == |Probed(base, k)| + |existing - Probed(base, k)|;
  }

  /** The index of the first free candidate at or after `k`. */
  function FreeIndex(base: string, existing: set<string>, k: nat): (r: nat)
    requires forall j :: 0 <= j < k ==> MarkdownFile(Candidate(base, j)) in existing
    ensures k <= r
    ensures MarkdownFile(Candidate(base, r)) !in existing
    ensures forall j :: 0 <= j < r ==> MarkdownFile(Candidate(base, j)) in existing
    decreases |existing| - k
  {
    if MarkdownFile(Candidate(base, k)) !in existing then k
    else
      ProbedWithin(base, existing, k + 1);
      FreeIndex(base, existing, k + 1)
  }

  /** The name `process_html_file` writes to: the first candidate whose file
      does not exist yet. */
  function ChooseFileName(sanitized: string, existing: set<string>): (name: string)
    ensures MarkdownFile(name) !in existing
    ensures exists k: nat :: name == Candidate(BaseName(sanitized), k)
                     && forall j :: 0 <= j < k ==> MarkdownFile(Candidate(BaseName(sanitized), j)) in existing
  {
    Candidate(BaseName(sanitized), FreeIndex(BaseName(sanitized), existing, 0))
  }

  /** There is only one first free candidate. */
  lemma FirstFreeUnique(base: string, existing: set<string>, m: nat, n: nat)
    requires MarkdownFile(Candidate(base, m)) !in existing
    requires MarkdownFile(Candidate(base, n)) !in existing
    requires forall j :: 0 <= j < m ==> MarkdownFile(Candidate(base, j)) in existing
    requires forall j :: 0 <= j < n ==> MarkdownFile(Candidate(base, j)) in existing
    ensures m == n
  {
  }

  /** The probing loop of `process_html_file`, step by step: try the stem,
      then `stem_1`, `stem_2`, ... until the file does not exist. */
  method PickFileName(sanitized: string, existing: set<string>) returns (name: string)
    ensures MarkdownFile(name) !in existing
    ensures name == ChooseFileName(sanitized, existing)
  {
    name := sanitized;
    if name == [] {
      name := Metadata.Untitled;
    }
    var counter: nat := 1;
    var original := name;
    while MarkdownFile(name) in existing
      invariant 1 <= counter
      invariant name == Candidate(original, counter - 1)
      invariant forall j :: 0 <= j < counter - 1 ==> MarkdownFile(Candidate(original, j)) in existing
      decreases |existing| - (counter - 1)
    {
      ProbedWithin(original, existing, counter);
      name := original + "_" + NatToString(counter);
      counter := counter + 1;
    }
    FirstFreeUnique(original, existing, counter - 1, FreeIndex(original, existing, 0));
  }

  /** Writing two posts with the same title into a directory that has
      neither name yet: the first keeps the stem, the second gets `_1`. */
  lemma SameTitleTwice(sanitized: string, existing: set<string>)
    requires MarkdownFile(BaseName(sanitized)) !in existing
    requires MarkdownFile(BaseName(sanitized) + "_1") !in existing
    ensures ChooseFileName(sanitized, existing) == BaseName(sanitized)
    ensures ChooseFileName(sanitized, existing + {MarkdownFile(BaseName(sanitized))}) == BaseName(sanitized) + "_1"
  {
    var base := BaseName(sanitized);
    var more := existing + {MarkdownFile(base)};
    FirstFreeUnique(base, existing, 0, FreeIndex(base, existing, 0));
    assert Candidate(base, 1) == base + "_1";
    FirstFreeUnique(base, more, 1, FreeIndex(base, more, 0));
  }
}

=== FILE: frontmatter.dfy ===
/**
 The Markdown file `process_html_file` writes (recover.py:262-283): a
 front-matter block of `key: value` lines between `---` fences, a blank
 line, then the converted body. Dates are abstract values of any type with
 equality; how they are parsed and formatted is not modelled, the format
 is given as a function.
 */
module FrontMatter {
  import opened Wrappers
  import opened Strings

  const Fence: string := "---"
  const TitleKey: string := "title: \""
  const DateKey: string := "date: "
  const UpdatedKey: string := "updated: "
  const CategoriesKey: string := "categories: "
  const TagsKey: string := "tags: "

  /** A line present only when `value` is. */
  function OptionalLine(key: string, value: Option<string>): (lines: seq<string>)
    ensures value.None? ==> lines == []
    ensures value.Some? ==> lines == [key + value.value]
  {
    match value
    case None => []
    case Some(v) => [key + v]
  }

  function Map<D>(d: Option<D>, format: D -> string): Option<string> {
    match d
    case None => None
    case Some(x) => Some(format(x))
  }

  /** The first element of a list, when there is one. */
  function First(xs: seq<string>): (r: Option<string>)
    ensures r.Some? <==> xs != []
    ensures r.Some? ==> r.value == xs[0]
  {
    if xs == [] then None else Some(xs[0])
  }

  /** What the header records: the title and, when written, the date,
      update date, category and tag. */
  datatype Header = Header(
    title: string,
    date: Option<string>,
    updated: Option<string>,
    category: Option<string>,
    tag: Option<string>)

  /** The values the writer puts in the header for a post. */
  function HeaderOf<D(==)>(title: string, created: Option<D>, updated: Option<D>,
                           categories: seq<string>, tags: seq<string>, format: D -> string): (h: Header)
    ensures h.title == title
    ensures h.date.Some? <==> created.Some?
    ensures created.Some? ==> h.date == Some(format(created.value))
    ensures h.updated.Some? <==> updated.Some? && updated != created
    ensures h.updated.Some? ==> h.updated == Some(format(updated.value))
    ensures h.category.Some? <==> categories != []
    ensures categories != [] ==> h.category == Some(categories[0])
    ensures h.tag.Some? <==> tags != []
    ensures tags != [] ==> h.tag == Some(tags[0])
  {
    Header(title, Map(created, format),
           if updated.Some? && updated != created then Map(updated, format) else None,
           First(categories), First(tags))
  }

  /** The lines of the front-matter block, fences included. */
  function HeaderLines(h: Header): (lines: seq<string>)
    ensures 3 <= |lines|
    ensures lines[0] == Fence && lines[1] == TitleKey + h.title + "\"" && lines[|lines| - 1] == Fence
    ensures |lines| == 3 + |OptionalLine(DateKey, h.date)| + |OptionalLine(UpdatedKey, h.updated)|
                         + |OptionalLine(CategoriesKey, h.category)| + |OptionalLine(TagsKey, h.tag)|
  {
    [Fence, TitleKey + h.title + "\""]
      + OptionalLine(DateKey, h.date)
      + OptionalLine(UpdatedKey, h.updated)
      + OptionalLine(CategoriesKey, h.category)
      + OptionalLine(TagsKey, h.tag)
      + [Fence]
  }

  /** Reads an optional `key` line off the front of `lines`. */
  function ReadLine(lines: seq<string>, key: string): (r: (Option<string>, seq<string>))
    ensures r.0.None? ==> r.1 == lines
    ensures r.0.Some? ==> lines != [] && lines[0] == key + r.0.value && r.1 == lines[1..]
  {
    if lines != [] && IsPrefix(key, lines[0]) then
      assert lines[0] == key + lines[0][|key|..];
      (Some(lines[0][|key|..]), lines[1..])
    else (None, lines)
  }

  /** Reads a front-matter block back: the fences, the quoted title and the
      optional lines in the order they are written. */
  function ReadHeader(lines: seq<string>): Option<Header> {
    if |lines| < 3 || lines[0] != Fence || lines[|lines| - 1] != Fence then None
    else
      var t := lines[1];
      if !IsPrefix(TitleKey, t) || |t| < |TitleKey| + 1 || t[|t| - 1] != '"' then None
      else
        var (d, rest1) := ReadLine(lines[2..|lines| - 1], DateKey);
        var (u, rest2) := ReadLine(rest1, UpdatedKey);
        var (c, rest3) := ReadLine(rest2, CategoriesKey);
        var (g, rest4) := ReadLine(rest3, TagsKey);
        if rest4 != [] then None else Some(Header(t[|TitleKey|..|t| - 1], d, u, c, g))
  }

  /** An optional line in front of later lines reads back as written, as
      long as the later lines start with a different key letter. */
  lemma ReadOptional(key: string, value: Option<string>, later: seq<string>)
    requires |key| > 0
    requires later != [] ==> later[0] != [] && later[0][0] != key[0]
    ensures ReadLine(OptionalLine(key, value) + later, key) == (value, later)
  {
    if value.Some? {
      var line := key + value.value;
      assert (OptionalLine(key, value) + later)[0] == line;
      assert line[..|key|] == key;
      assert line[|key|..] == value.value;
      assert (OptionalLine(key, value) + later)[1..] == later;
    } else {
      assert OptionalLine(key, value) + later == later;
    }
  }

  /** The front-matter block reads back to the header it was written from. */
  lemma ReadHeaderLines(h: Header)
    ensures ReadHeader(HeaderLines(h)) == Some(h)
  {
    var lines := HeaderLines(h);
    var t4 := OptionalLine(TagsKey, h.tag);
    var t3 := OptionalLine(CategoriesKey, h.category) + t4;
    var t2 := OptionalLine(UpdatedKey, h.updated) + t3;
    var t1 := OptionalLine(DateKey, h.date) + t2;
    assert lines == [Fence, TitleKey + h.title + "\""] + t1 + [Fence];
    assert lines[2..|lines| - 1] == t1;
    ReadOptional(TagsKey, h.tag, []);
    assert t4 + [] == t4;
    ReadOptional(CategoriesKey, h.category, t4);
    ReadOptional(UpdatedKey, h.updated, t3);
    ReadOptional(DateKey, h.date, t2);
    var t := lines[1];
    assert t[..|TitleKey|] == TitleKey;
    assert t[|TitleKey|..|t| - 1] == h.title;
  }

  /** `"".join(line + "\n" for line in lines)`. */
  function Unlines(lines: seq<string>): string {
    if lines == [] then [] else lines[0] + "\n" + Unlines(lines[1..])
  }

  lemma {:induction false} UnlinesAppend(a: seq<string>, b: seq<string>)
    ensures Unlines(a + b) == Unlines(a) + Unlines(b)
  {
    if a != [] {
      UnlinesAppend(a[1..], b);
      assert (a + b)[1..] == a[1..] + b;
    } else {
      assert a + b == b;
    }
  }

  /** The rendering of lines `[first, second] + rest + [last]` followed by a
      blank line and `body` starts with the first two lines and ends with
      the last one, the blank line and `body`. */
  lemma RenderedEnds(first: string, second: string, rest: seq<string>, last: string, body: string)
    ensures IsPrefix(first + "\n" + second + "\n", Unlines([first, second] + rest + [last]) + "\n" + body)
    ensures IsSuffix(last + "\n\n" + body, Unlines([first, second] + rest + [last]) + "\n" + body)
  {
    UnlinesFrame(first, second, rest, last);
    assert last + "\n\n" + body == (last + "\n") + "\n" + body;
    EndsOf(first + "\n" + second + "\n", Unlines(rest), last + "\n", "\n", body,
           Unlines([first, second] + rest + [last]));
  }

  /** The rendering of lines between a two-line head and a last line. */
  lemma UnlinesFrame(first: string, second: string, rest: seq<string>, last: string)
    ensures Unlines([first, second] + rest + [last]) == first + "\n" + second + "\n" + Unlines(rest) + (last + "\n")
  {
    UnlinesAppend([first, second] + rest, [last]);
    UnlinesAppend([first, second], rest);
    assert [first, second][1..] == [second];
  }

  /** A text made of `head`, `middle` and `l`, followed by `n` and `body`,
      starts with `head` and ends with `l`, `n` and `body`. */
  lemma EndsOf(head: string, middle: string, l: string, n: string, body: string, u: string)
    requires u == head + middle + l
    ensures IsPrefix(head, u + n + body)
    ensures IsSuffix(l + n + body, u + n + body)
  {
    assert u + n + body == head + (middle + (l + n + body));
    ConcatEnds(head, middle + (l + n + body));
    assert u + n + body == (head + middle) + (l + n + body);
    ConcatEnds(head + middle, l + n + body);
  }

  /** No value in the header holds a line break, so each is one line. */
  predicate HeaderSafe(h: Header) {
    && '\n' !in h.title
    && (h.date.Some? ==> '\n' !in h.date.value)
    && (h.updated.Some? ==> '\n' !in h.updated.value)
    && (h.category.Some? ==> '\n' !in h.category.value)
    && (h.tag.Some? ==> '\n' !in h.tag.value)
  }

  /** The first fence line at or after `i`. */
  function FenceFrom(lines: seq<string>, i: nat): (r: Option<nat>)
    ensures r.Some? ==> i <= r.value < |lines| && lines[r.value] == Fence
    ensures r.Some? ==> forall k :: i <= k < r.value ==> lines[k] != Fence
    ensures r.None? ==> forall k :: i <= k < |lines| ==> lines[k] != Fence
    decreases |lines| - i
  {
    if i >= |lines| then None
    else if lines[i] == Fence then Some(i)
    else FenceFrom(lines, i + 1)
  }

  /** Reads a written post back into its header and body: the opening
      fence, the header up to the first closing fence, a blank line, and
      everything after it as the body. */
  function ReadPost(text: string): Option<(Header, string)> {
    var lines := Split(text, '\n');
    if lines[0] != Fence then None
    else match FenceFrom(lines, 1)
      case None => None
      case Some(j) =>
        if j + 1 >= |lines| || lines[j + 1] != "" then None
        else match ReadHeader(lines[..j + 1])
          case None => None
          case Some(h) => Some((h, Join(lines[j + 2..], "\n")))
  }

  /** For lines of which the last is "", `Unlines` is the `\n`-join. */
  lemma {:induction false} UnlinesJoin(lines: seq<string>)
    requires lines != []
    ensures Unlines(lines) == Join(lines, "\n") + "\n"
    decreases |lines|
  {
    if |lines| > 1 {
      UnlinesJoin(lines[1..]);
    } else {
      assert lines[1..] == [];
    }
  }

  /** The lines of a header all differ from the fence except the first and
      the last, and none holds a line break when the header is safe. */
  lemma HeaderLinesShape(h: Header)
    ensures var lines := HeaderLines(h);
            forall k :: 0 < k < |lines| - 1 ==> lines[k] != [] && lines[k][0] != '-'
    ensures HeaderSafe(h) ==> var lines := HeaderLines(h);
            forall k :: 0 <= k < |lines| ==> '\n' !in lines[k]
  {
    var lines := HeaderLines(h);
    var opts := OptionalLine(DateKey, h.date) + OptionalLine(UpdatedKey, h.updated)
                + OptionalLine(CategoriesKey, h.category) + OptionalLine(TagsKey, h.tag);
    assert lines == [Fence, TitleKey + h.title + "\""] + opts + [Fence];
    forall k | 0 <= k < |opts|
      ensures opts[k] != [] && opts[k][0] in "ductg"
      ensures HeaderSafe(h) ==> '\n' !in opts[k]
    {
    }
  }

  /** The file as the `\n`-join of the header lines, a blank line and the
      body's lines. */
  lemma PostFileLines(h: Header, body: string)
    ensures PostFile(h, body) == Join(HeaderLines(h) + [""] + Split(body, '\n'), "\n")
  {
    var lines := HeaderLines(h);
    UnlinesJoin(lines);
    JoinSplit(body, '\n');
    JoinAppend(lines, [""], "\n");
    JoinAppend(lines + [""], Split(body, '\n'), "\n");
    assert Join([""], "\n") == "";
  }

  /** The lines of a written post: the header lines, a blank line and the
      body's lines. */
  lemma SplitPostFile(h: Header, body: string)
    requires HeaderSafe(h)
    ensures Split(PostFile(h, body), '\n') == HeaderLines(h) + [""] + Split(body, '\n')
  {
    var hl := HeaderLines(h);
    var parts := Split(body, '\n');
    var all := hl + [""] + parts;
    PostFileLines(h, body);
    HeaderLinesShape(h);
    forall i | 0 <= i < |all|
      ensures '\n' !in all[i]
    {
      if i < |hl| {
        assert all[i] == hl[i];
      } else if i > |hl| {
        assert all[i] == parts[i - |hl| - 1];
      }
    }
    SplitJoin(all, '\n');
  }

  /** In those lines the header's closing fence is the first fence after
      the opening one. */
  lemma ClosingFence(h: Header, rest: seq<string>)
    ensures var all := HeaderLines(h) + rest;
            FenceFrom(all, 1) == Some(|HeaderLines(h)| - 1)
  {
    var hl := HeaderLines(h);
    var all := hl + rest;
    HeaderLinesShape(h);
    forall k | 1 <= k < |hl| - 1
      ensures all[k] != Fence
    {
      assert all[k] == hl[k];
      assert Fence[0] == '-';
    }
    assert all[|hl| - 1] == Fence;
  }

  /** A post whose header values are single lines reads back to the header
      and the body it was written from, whatever the body holds. */
  lemma ReadPostFile(h: Header, body: string)
    requires HeaderSafe(h)
    ensures ReadPost(PostFile(h, body)) == Some((h, body))
  {
    var hl := HeaderLines(h);
    var parts := Split(body, '\n');
    var all := hl + [""] + parts;
    SplitPostFile(h, body);
    assert all == hl + ([""] + parts);
    ClosingFence(h, [""] + parts);
    var j := |hl| - 1;
    assert all[0] == Fence;
    assert all[j + 1] == "";
    assert all[..j + 1] == hl;
    ReadHeaderLines(h);
    assert all[j + 2..] == parts;
    JoinSplit(body, '\n');
  }

  /** The whole file: the block, a blank line, then the body as it is. */
  function PostFile(h: Header, body: string): (r: string)
    ensures IsPrefix(Fence + "\n" + TitleKey + h.title + "\"\n", r)
    ensures IsSuffix(Fence + "\n\n" + body, r)
  {
    var lines := HeaderLines(h);
    var titleLine := TitleKey + h.title + "\"";
    var rest := lines[2..|lines| - 1];
    assert lines == [Fence, titleLine] + rest + [Fence];
    RenderedEnds(Fence, titleLine, rest, Fence, body);
    Unlines(lines) + "\n" + body
  }

  /** `process_html_file`'s output file for a post. */
  function RenderPost<D(==)>(title: string, created: Option<D>, updated: Option<D>,
                             categories: seq<string>, tags: seq<string>, format: D -> string,
                             body: string): (r: string)
    ensures ReadHeader(HeaderLines(HeaderOf(title, created, updated, categories, tags, format)))
              == Some(HeaderOf(title, created, updated, categories, tags, format))
    ensures IsPrefix(Fence + "\n" + TitleKey + title + "\"\n", r)
    ensures IsSuffix(Fence + "\n\n" + body, r)
    ensures HeaderSafe(HeaderOf(title, created, updated, categories, tags, format)) ==>
              ReadPost(r) == Some((HeaderOf(title, created, updated, categories, tags, format), body))
  {
    var h := HeaderOf(title, created, updated, categories, tags, format);
    ReadHeaderLines(h);
    assert HeaderSafe(h) ==> ReadPost(PostFile(h, body)) == Some((h, body)) by {
      if HeaderSafe(h) {
        ReadPostFile(h, body);
      }
    }
    PostFile(h, body)
  }
}

=== FILE: metadata.dfy ===
/**
 The post's title, categories and tags as the recovery script reads them out
 of a rendered page (`extract_title`, `extract_categories`, `extract_tags`,
 recover.py:29-45 and 87-121).
 */
module Metadata {
  import opened Wrappers
  import opened Strings
  import opened Dom

  /** The title used when a page has none, and the file stem used when a
      title sanitises to nothing. */
  const Untitled: string := "无标题"

  /** What separates a page title from the site name in `<title>`. */
  const TitleSeparator: string := " | "

  // ---------------------------------------------------------------------------
  // Element filters
  // ---------------------------------------------------------------------------

  /** The filter `find('meta', property=p)`. */
  function MetaWithProperty(p: string): Node -> bool {
    n => IsTag(n, "meta") && Attr(n, "property") == Some(p)
  }

  /** The `content` of the first `<meta property=p>`, when that is truthy
      (present and non-empty). Only the first such element is consulted. */
  function MetaContent(doc: Node, p: string): (r: Option<string>)
    ensures r.Some? ==> r.value != ""
    ensures r.Some? <==> Find(doc, MetaWithProperty(p)).Some? && HasNonEmptyAttr(Find(doc, MetaWithProperty(p)).value.node, "content")
    ensures r.Some? ==> r == Attr(Find(doc, MetaWithProperty(p)).value.node, "content")
  {
    match Find(doc, MetaWithProperty(p))
    case None => None
    case Some(h) => if HasNonEmptyAttr(h.node, "content") then Attr(h.node, "content") else None
  }

  // ---------------------------------------------------------------------------
  // extract_title
  // ---------------------------------------------------------------------------

  /** `s.split(' | ')[0]` when `' | '` occurs in `s`, else `s`: everything
      before the first separator. */
  function CutAtSeparator(s: string): (r: string)
    ensures IsPrefix(r, s)
    ensures !Contains(r, TitleSeparator)
    ensures Contains(s, TitleSeparator) ==> IsPrefix(TitleSeparator, s[|r|..])
    ensures forall j :: 0 <= j < |r| ==> !OccursAt(s, TitleSeparator, j)
    ensures !Contains(s, TitleSeparator) ==> r == s
  {
    match IndexOf(s, TitleSeparator)
    case None => s
    case Some(k) =>
      var r := s[..k];
      assert OccursAt(s, TitleSeparator, k);
      assert s[k..][..|TitleSeparator|] == s[k..k + |TitleSeparator|];
      assert !Contains(r, TitleSeparator) by {
        if Contains(r, TitleSeparator) {
          var j := IndexOf(r, TitleSeparator).value;
          OccursOfPrefix(s, r, TitleSeparator, j);
          assert false;
        }
      }
      r
  }

  /** The text of the first `<title>` element, if there is one. */
  function TitleText(doc: Node): Option<string> {
    match Find(doc, Named("title"))
    case None => None
    case Some(h) => Some(GetText(h.node, ""))
  }

  /** `extract_title(soup)`. */
  function ExtractTitle(doc: Node): (title: string)
    ensures MetaContent(doc, "og:title").Some? ==> title == Strip(MetaContent(doc, "og:title").value)
    ensures MetaContent(doc, "og:title").None? && TitleText(doc).Some? ==>
              var text := Strip(TitleText(doc).value);
              && IsPrefix(title, text)
              && !Contains(title, TitleSeparator)
              && (Contains(text, TitleSeparator) ==> IsPrefix(TitleSeparator, text[|title|..]))
              && (forall j :: 0 <= j < |title| ==> !OccursAt(text, TitleSeparator, j))
              && (!Contains(text, TitleSeparator) ==> title == text)
    ensures MetaContent(doc, "og:title").None? && TitleText(doc).None? ==> title == Untitled
  {
    match MetaContent(doc, "og:title")
    case Some(content) => Strip(content)
    case None =>
      match TitleText(doc)
      case Some(text) => CutAtSeparator(Strip(text))
      case None => Untitled
  }

  /** The cut is at the first separator: a text made of `a`, the separator
      and `b`, with no separator starting inside `a`, is cut back to `a`. */
  lemma CutAtFirst(a: string, b: string)
    requires forall j :: 0 <= j < |a| ==> !OccursAt(a + TitleSeparator + b, TitleSeparator, j)
    ensures CutAtSeparator(a + TitleSeparator + b) == a
  {
    var s := a + TitleSeparator + b;
    var r := CutAtSeparator(s);
    ContainsIff(s, TitleSeparator);
    assert Contains(s, TitleSeparator);
    assert s[|a|..|a| + |TitleSeparator|] == TitleSeparator;
    assert OccursAt(s, TitleSeparator, |a|);
    assert s[|r|..][..|TitleSeparator|] == s[|r|..|r| + |TitleSeparator|];
    assert OccursAt(s, TitleSeparator, |r|);
    assert |r| == |a|;
    assert s[..|a|] == a;
  }

  /** Cutting a string that starts with a visible character leaves that
      character: the separator begins with a space. */
  lemma CutKeepsLead(s: string)
    requires s != [] && !IsSpace(s[0])
    ensures CutAtSeparator(s) != [] && CutAtSeparator(s)[0] == s[0]
  {
    assert IsSpace(TitleSeparator[0]);
  }

  /** A title taken from `<title>` is empty only when that text is all
      whitespace. */
  lemma TitleFromTagNonEmpty(doc: Node)
    requires MetaContent(doc, "og:title").None? && TitleText(doc).Some?
    requires Strip(TitleText(doc).value) != []
    ensures ExtractTitle(doc) != []
  {
    CutKeepsLead(Strip(TitleText(doc).value));
  }

  /** A page whose `og:title` content is only whitespace gets an empty
      title: the content is tested before it is stripped. */
  lemma TitleCanBeEmpty()
    ensures var meta := Element("meta", None, map["property" := "og:title", "content" := " "], []);
            ExtractTitle(Element("[document]", None, map[], [meta])) == []
  {
    var meta := Element("meta", None, map["property" := "og:title", "content" := " "], []);
    var doc := Element("[document]", None, map[], [meta]);
    assert Descendants(doc) == [Hit(meta, [doc])];
    assert MetaWithProperty("og:title")(meta);
    assert Find(doc, MetaWithProperty("og:title")) == Some(Hit(meta, [doc]));
    assert MetaContent(doc, "og:title") == Some(" ");
    StripEmptyIff(" ");
  }

  // ---------------------------------------------------------------------------
  // extract_categories / extract_tags
  // ---------------------------------------------------------------------------

  ghost predicate NoDup<T>(xs: seq<T>) {
    forall i, j :: 0 <= i < j < |xs| ==> xs[i] != xs[j]
  }

  /** `[t.strip() for t in texts]`. */
  function StripAll(texts: seq<string>): (r: seq<string>)
    ensures |r| == |texts|
    ensures forall i :: 0 <= i < |texts| ==> r[i] == Strip(texts[i])
  {
    if texts == [] then [] else [Strip(texts[0])] + StripAll(texts[1..])
  }

  /** The index of the first `x` in `xs`, or `|xs|` when there is none. */
  function FirstIndex(xs: seq<string>, x: string): (k: nat)
    ensures k <= |xs|
    ensures k < |xs| <==> x in xs
    ensures k < |xs| ==> xs[k] == x
  {
    if xs == [] then 0 else if xs[0] == x then 0 else 1 + FirstIndex(xs[1..], x)
  }

  /** The link loop of `extract_categories` / `extract_tags` over texts
      that are already stripped, starting from the list `acc`: each text is
      appended when it is non-empty and not yet in the list. */
  function FirstSeen(acc: seq<string>, items: seq<string>): (r: seq<string>)
    requires NoDup(acc)
    ensures NoDup(r)
    ensures |acc| <= |r| && r[..|acc|] == acc
    ensures forall k :: |acc| <= k < |r| ==> r[k] != "" && r[k] in items
    ensures forall i :: 0 <= i < |items| && items[i] != "" ==> items[i] in r
    ensures forall p, q :: |acc| <= p < q < |r| ==> FirstIndex(items, r[p]) < FirstIndex(items, r[q])
    decreases |items|
  {
    if items == [] then acc
    else
      var s := items[0];
      var next := if s != "" && s !in acc then acc + [s] else acc;
      var r := FirstSeen(next, items[1..]);
      FirstSeenStep(acc, items, next, r);
      r
  }

  /** The inductive step of `FirstSeen`: what one more text does. */
  lemma FirstSeenStep(acc: seq<string>, items: seq<string>, next: seq<string>, r: seq<string>)
    requires NoDup(acc) && items != []
    requires next == if items[0] != "" && items[0] !in acc then acc + [items[0]] else acc
    requires NoDup(r)
    requires |next| <= |r| && r[..|next|] == next
    requires forall k :: |next| <= k < |r| ==> r[k] != "" && r[k] in items[1..]
    requires forall i :: 0 <= i < |items[1..]| && items[1..][i] != "" ==> items[1..][i] in r
    requires forall p, q :: |next| <= p < q < |r| ==> FirstIndex(items[1..], r[p]) < FirstIndex(items[1..], r[q])
    ensures |acc| <= |r| && r[..|acc|] == acc
    ensures forall k :: |acc| <= k < |r| ==> r[k] != "" && r[k] in items
    ensures forall i :: 0 <= i < |items| && items[i] != "" ==> items[i] in r
    ensures forall p, q :: |acc| <= p < q < |r| ==> FirstIndex(items, r[p]) < FirstIndex(items, r[q])
  {
    assert r[..|acc|] == next[..|acc|];
    FirstSeenStepFresh(acc, items, next, r);
    FirstSeenStepCovers(acc, items, next, r);
    FirstSeenStepOrder(acc, items, next, r);
  }

  /** Past `acc`, an element is a non-empty text, the first one only when it
      was the one appended, and otherwise first found one place later. */
  lemma FirstSeenStepFresh(acc: seq<string>, items: seq<string>, next: seq<string>, r: seq<string>)
    requires items != []
    requires next == if items[0] != "" && items[0] !in acc then acc + [items[0]] else acc
    requires NoDup(r)
    requires |next| <= |r| && r[..|next|] == next
    requires forall k :: |next| <= k < |r| ==> r[k] != "" && r[k] in items[1..]
    ensures forall k :: |acc| <= k < |r| ==> r[k] != "" && r[k] in items
    ensures forall k :: |acc| <= k < |r| && r[k] == items[0] ==> k == |acc| && next == acc + [items[0]]
  {
    forall k | |acc| <= k < |r|
      ensures r[k] != "" && r[k] in items
      ensures r[k] == items[0] ==> k == |acc| && next == acc + [items[0]]
    {
      if k >= |next| {
        assert r[k] in items[1..];
      } else {
        assert r[k] == items[0];
      }
      if r[k] == items[0] {
        if next != acc {
          assert r[|acc|] == items[0];
        }
      }
    }
  }

  /** Every non-empty text ends up in the list. */
  lemma FirstSeenStepCovers(acc: seq<string>, items: seq<string>, next: seq<string>, r: seq<string>)
    requires items != []
    requires next == if items[0] != "" && items[0] !in acc then acc + [items[0]] else acc
    requires |next| <= |r| && r[..|next|] == next
    requires forall i :: 0 <= i < |items[1..]| && items[1..][i] != "" ==> items[1..][i] in r
    ensures forall i :: 0 <= i < |items| && items[i] != "" ==> items[i] in r
  {
    forall i | 0 <= i < |items| && items[i] != ""
      ensures items[i] in r
    {
      if i == 0 {
        if items[0] in acc {
          var j :| 0 <= j < |acc| && acc[j] == items[0];
          assert r[j] == next[j];
        } else {
          assert r[|acc|] == next[|acc|];
        }
      } else {
        assert items[i] == items[1..][i - 1];
      }
    }
  }

  /** First occurrences keep their order when one more text is put in front. */
  lemma FirstSeenStepOrder(acc: seq<string>, items: seq<string>, next: seq<string>, r: seq<string>)
    requires items != []
    requires next == if items[0] != "" && items[0] !in acc then acc + [items[0]] else acc
    requires |next| <= |r| && r[..|next|] == next
    requires forall k :: |acc| <= k < |r| && r[k] == items[0] ==> k == |acc| && next == acc + [items[0]]
    requires forall p, q :: |next| <= p < q < |r| ==> FirstIndex(items[1..], r[p]) < FirstIndex(items[1..], r[q])
    ensures forall p, q :: |acc| <= p < q < |r| ==> FirstIndex(items, r[p]) < FirstIndex(items, r[q])
  {
    forall p, q | |acc| <= p < q < |r|
      ensures FirstIndex(items, r[p]) < FirstIndex(items, r[q])
    {
      assert r[q] != items[0];
      assert FirstIndex(items, r[q]) == 1 + FirstIndex(items[1..], r[q]);
      if r[p] != items[0] {
        assert FirstIndex(items, r[p]) == 1 + FirstIndex(items[1..], r[p]);
        if next != acc {
          assert r[|acc|] == next[|acc|];
        }
      }
    }
  }

  /** The meta value, as a list of at most one element. */
  function MetaList(doc: Node, p: string): (r: seq<string>)
    ensures NoDup(r)
    ensures MetaContent(doc, p).Some? ==> r == [MetaContent(doc, p).value]
    ensures MetaContent(doc, p).None? ==> r == []
  {
    match MetaContent(doc, p)
    case Some(v) => [v]
    case None => []
  }

  /** `link.get_text()` for every link with class `c`, in document order. */
  function LinkTexts(doc: Node, c: string): seq<string> {
    EachText(FindAll(doc, NamedWithClass("a", c)))
  }

  /** The common shape of `extract_categories` and `extract_tags`: the
      truthy `content` of `<meta property=p>` first, as it is, then the
      stripped, non-empty texts of the links with class `c` not already
      listed, in the order of their first appearance. */
  function ExtractTaxonomy(doc: Node, p: string, c: string): (r: seq<string>)
    ensures NoDup(r)
    ensures MetaContent(doc, p).Some? ==> |r| >= 1 && r[0] == MetaContent(doc, p).value
    ensures forall k :: |MetaList(doc, p)| <= k < |r| ==> r[k] != "" && r[k] in StripAll(LinkTexts(doc, c))
    ensures forall i :: 0 <= i < |LinkTexts(doc, c)| && Strip(LinkTexts(doc, c)[i]) != "" ==>
              Strip(LinkTexts(doc, c)[i]) in r
    ensures forall p', q :: |MetaList(doc, p)| <= p' < q < |r| ==>
              FirstIndex(StripAll(LinkTexts(doc, c)), r[p']) < FirstIndex(StripAll(LinkTexts(doc, c)), r[q])
  {
    var meta := MetaList(doc, p);
    var links := StripAll(LinkTexts(doc, c));
    var r := FirstSeen(meta, links);
    assert r[..|meta|] == meta;
    forall i | 0 <= i < |LinkTexts(doc, c)| && Strip(LinkTexts(doc, c)[i]) != ""
      ensures Strip(LinkTexts(doc, c)[i]) in r
    {
      assert links[i] == Strip(LinkTexts(doc, c)[i]);
    }
    r
  }

  /** `extract_categories(soup)`. */
  function ExtractCategories(doc: Node): (r: seq<string>)
    ensures NoDup(r)
    ensures MetaContent(doc, "article:section").Some? ==> |r| >= 1 && r[0] == MetaContent(doc, "article:section").value
    ensures forall i :: 0 <= i < |LinkTexts(doc, "post-meta-categories")| &&
                        Strip(LinkTexts(doc, "post-meta-categories")[i]) != "" ==>
              Strip(LinkTexts(doc, "post-meta-categories")[i]) in r
  {
    ExtractTaxonomy(doc, "article:section", "post-meta-categories")
  }

  /** `extract_tags(soup)`. */
  function ExtractTags(doc: Node): (r: seq<string>)
    ensures NoDup(r)
    ensures MetaContent(doc, "article:tag").Some? ==> |r| >= 1 && r[0] == MetaContent(doc, "article:tag").value
    ensures forall i :: 0 <= i < |LinkTexts(doc, "post-meta__tags")| &&
                        Strip(LinkTexts(doc, "post-meta__tags")[i]) != "" ==>
              Strip(LinkTexts(doc, "post-meta__tags")[i]) in r
  {
    ExtractTaxonomy(doc, "article:tag", "post-meta__tags")
  }
}

=== FILE: recover.dfy ===
/**
 The recovery pipeline around the extractors: which pages are articles,
 which top-level directories are years, where an image's file is looked
 for, and the Markdown file one page becomes (recover.py:22-27, 230-293,
 295-330 and 374-384).
 */
module Recover {
  import opened Wrappers
  import opened Strings
  import opened Dom
  import opened Metadata
  import opened Content
  import opened Filename
  import opened FrontMatter

  // ---------------------------------------------------------------------------
  // is_article_page
  // ---------------------------------------------------------------------------

  /** The opening of the post container, as the rendered page spells it. */
  const ArticleMarker: string := "<article class=\"container post-content\""

  /** `is_article_page(html)`: a plain substring test on the raw text. */
  function IsArticlePage(html: string): (r: bool)
    ensures r <==> exists a, b :: html == a + ArticleMarker + b
  {
    ContainsIff(html, ArticleMarker);
    Contains(html, ArticleMarker)
  }

  // ---------------------------------------------------------------------------
  // Year directories: re.fullmatch(r'\d{4}', entry)
  // ---------------------------------------------------------------------------

  /** The code points of the digit zeros of Unicode 15.0. The characters
      `\d` matches in a `str` pattern (general category Nd) are exactly the
      ten code points starting at each. */
  predicate IsDigitZero(z: int) {
    z == 0x30 || z == 0x660 || z == 0x6F0 || z == 0x7C0 || z == 0x966 || z == 0x9E6 ||
    z == 0xA66 || z == 0xAE6 || z == 0xB66 || z == 0xBE6 || z == 0xC66 || z == 0xCE6 ||
    z == 0xD66 || z == 0xDE6 || z == 0xE50 || z == 0xED0 || z == 0xF20 || z == 0x1040 ||
    z == 0x1090 || z == 0x17E0 || z == 0x1810 || z == 0x1946 || z == 0x19D0 || z == 0x1A80 ||
    z == 0x1A90 || z == 0x1B50 || z == 0x1BB0 || z == 0x1C40 || z == 0x1C50 || z == 0xA620 ||
    z == 0xA8D0 || z == 0xA900 || z == 0xA9D0 || z == 0xA9F0 || z == 0xAA50 || z == 0xABF0 ||
    z == 0xFF10 || z == 0x104A0 || z == 0x10D30 || z == 0x11066 || z == 0x110F0 || z == 0x11136 ||
    z == 0x111D0 || z == 0x112F0 || z == 0x11450 || z == 0x114D0 || z == 0x11650 || z == 0x116C0 ||
    z == 0x11730 || z == 0x118E0 || z == 0x11950 || z == 0x11C50 || z == 0x11D50 || z == 0x11DA0 ||
    z == 0x11F50 || z == 0x16A60 || z == 0x16AC0 || z == 0x16B50 || z == 0x1D7CE || z == 0x1D7D8 ||
    z == 0x1D7E2 || z == 0x1D7EC || z == 0x1D7F6 || z == 0x1E140 || z == 0x1E2F0 || z == 0x1E4F0 ||
    z == 0x1E950 || z == 0x1FBF0
  }

  /** `\d` on a single character. */
  predicate IsDecimalDigit(c: char) {
    exists z :: IsDigitZero(z) && z <= c as int < z + 10
  }

  /** The directory filter of `main`: exactly four decimal digits. */
  predicate IsYearDirectory(name: string) {
    |name| == 4 && forall i :: 0 <= i < 4 ==> IsDecimalDigit(name[i])
  }

  /** Apart from the ASCII zero, every digit zero lies at U+0660 or above. */
  lemma ZerosAfterAscii()
    ensures IsDigitZero(0x30)
    ensures forall z :: IsDigitZero(z) ==> z == 0x30 || z >= 0x660
  {
  }

  /** Below U+0660 the decimal digits are exactly `0` to `9`. */
  lemma LowDecimalDigit(c: char)
    requires (c as int) < 0x660
    ensures IsDecimalDigit(c) <==> IsAsciiDigit(c)
  {
    ZerosAfterAscii();
    if IsDecimalDigit(c) {
      var z :| IsDigitZero(z) && z <= c as int < z + 10;
      assert z == 0x30;
    }
    if IsAsciiDigit(c) {
      assert 0x30 <= c as int < 0x30 + 10;
    }
  }

  lemma AsciiDigitIsDecimal(c: char)
    requires IsAsciiDigit(c)
    ensures IsDecimalDigit(c)
  {
    LowDecimalDigit(c);
  }

  /** For a name written below U+0660 (ASCII, Latin and the like), the
      filter accepts exactly the names of four ASCII digits. */
  lemma AsciiYearDirectory(name: string)
    requires forall i :: 0 <= i < |name| ==> (name[i] as int) < 0x660
    ensures IsYearDirectory(name) <==> |name| == 4 && forall i :: 0 <= i < 4 ==> IsAsciiDigit(name[i])
  {
    forall i | 0 <= i < |name|
      ensures IsDecimalDigit(name[i]) <==> IsAsciiDigit(name[i])
    {
      LowDecimalDigit(name[i]);
    }
  }

  /** Every year from 1000 to 9999, written out, names a year directory. */
  lemma YearIsYearDirectory(n: nat)
    requires 1000 <= n <= 9999
    ensures IsYearDirectory(NatToString(n))
  {
    var s := NatToString(n);
    assert NatToString(n / 1000) == [DigitChar(n / 1000)];
    assert NatToString(n / 100) == NatToString(n / 1000) + [DigitChar(n / 100 % 10)];
    assert NatToString(n / 10) == NatToString(n / 100) + [DigitChar(n / 10 % 10)];
    assert |s| == 4;
    forall i | 0 <= i < 4
      ensures IsDecimalDigit(s[i])
    {
      AsciiDigitIsDecimal(s[i]);
    }
  }

  /** Digits are not only ASCII: a year in Arabic-Indic digits passes too. */
  lemma ArabicIndicYear()
    ensures IsYearDirectory("\U{662}\U{660}\U{662}\U{664}")
  {
    var s := "\U{662}\U{660}\U{662}\U{664}";
    assert IsDigitZero(0x660);
    forall i | 0 <= i < 4
      ensures IsDecimalDigit(s[i])
    {
      assert 0x660 <= s[i] as int < 0x660 + 10;
    }
  }

  // ---------------------------------------------------------------------------
  // copy_resources: where an image's file is looked for
  // ---------------------------------------------------------------------------

  /** Where an image `src` points: nowhere (absent or empty), below the site
      root (a leading `/`, dropped), or relative to the page's directory. */
  datatype ImageRef = Skipped | FromRoot(path: string) | FromPage(path: string)

  function ClassifySrc(src: Option<string>): (r: ImageRef)
    ensures r.Skipped? <==> src.None? || src.value == ""
    ensures r.FromRoot? <==> src.Some? && src.value != "" && src.value[0] == '/'
    ensures r.FromRoot? ==> src.value == "/" + r.path
    ensures r.FromPage? ==> src.value == r.path
  {
    match src
    case None => Skipped
    case Some(s) =>
      if s == "" then Skipped
      else if s[0] == '/' then
        assert s == "/" + s[1..];
        FromRoot(s[1..])
      else FromPage(s)
  }

  /** The number of `/` that joining puts after the directory `dir`: none
      when it is empty or already ends in `/`, one otherwise. */
  function Gap(dir: string): nat {
    if dir == [] || dir[|dir| - 1] == '/' then 0 else 1
  }

  /** `r` is the directory `dir`, then a `/` when `dir` needs one, then the
      relative path `rel`, with nothing else in between. */
  predicate JoinedUnder(dir: string, rel: string, r: string) {
    && IsPrefix(dir, r)
    && IsSuffix(rel, r)
    && |r| == |dir| + Gap(dir) + |rel|
    && (Gap(dir) == 1 ==> r[|dir|] == '/')
  }

  /** A directory and a relative path determine the joined path. */
  lemma JoinedUnderUnique(dir: string, rel: string, r1: string, r2: string)
    requires JoinedUnder(dir, rel, r1) && JoinedUnder(dir, rel, r2)
    ensures r1 == r2
  {
    forall i | 0 <= i < |r1|
      ensures r1[i] == r2[i]
    {
      if i < |dir| {
        assert r1[..|dir|][i] == r2[..|dir|][i];
      } else if i >= |dir| + Gap(dir) {
        var k := |r1| - |rel|;
        assert r1[k..][i - k] == r2[k..][i - k];
      }
    }
  }

  /** POSIX `os.path.join(a, b)`: an absolute `b` replaces `a`. */
  function JoinPath(a: string, b: string): (r: string)
    ensures b != [] && b[0] == '/' ==> r == b
    ensures (b == [] || b[0] != '/') ==> IsPrefix(a, r) && IsSuffix(b, r)
    ensures (b == [] || b[0] != '/') ==> JoinedUnder(a, b, r)
  {
    ConcatEnds(a, b);
    ConcatEnds(a + "/", b);
    ConcatEnds(a, "/" + b);
    assert a + "/" + b == a + ("/" + b);
    if b != [] && b[0] == '/' then b
    else if a == [] || a[|a| - 1] == '/' then a + b
    else a + "/" + b
  }

  /** The path `copy_resources` looks for an image at, before `abspath`. */
  function ResourcePath(root: string, pageDir: string, src: Option<string>): (r: Option<string>)
    ensures r.None? <==> ClassifySrc(src).Skipped?
    ensures ClassifySrc(src).FromPage? ==> IsPrefix(pageDir, r.value) && IsSuffix(src.value, r.value)
    ensures ClassifySrc(src).FromRoot? ==>
              var p := ClassifySrc(src).path;
              if p != [] && p[0] == '/' then r.value == p
              else IsPrefix(root, r.value) && IsSuffix(p, r.value) && IsSuffix(src.value[1..], r.value)
    ensures ClassifySrc(src).FromPage? ==> JoinedUnder(pageDir, src.value, r.value)
    ensures ClassifySrc(src).FromRoot? ==>
              var p := ClassifySrc(src).path;
              p == [] || p[0] != '/' ==> JoinedUnder(root, p, r.value)
  {
    match ClassifySrc(src)
    case Skipped => None
    case FromRoot(p) => Some(JoinPath(root, p))
    case FromPage(p) => Some(JoinPath(pageDir, p))
  }

  /** A root-relative `src` is looked for below the site root. */
  lemma RootRelativeUnderRoot(root: string, pageDir: string, path: string)
    requires path == [] || path[0] != '/'
    ensures ResourcePath(root, pageDir, Some("/" + path)).Some?
    ensures IsPrefix(root, ResourcePath(root, pageDir, Some("/" + path)).value)
    ensures JoinedUnder(root, path, ResourcePath(root, pageDir, Some("/" + path)).value)
  {
  }

  /** A `src` that does not start with `/` is looked for below the page's
      directory. */
  lemma PageRelativeUnderPage(root: string, pageDir: string, path: string)
    requires path != [] && path[0] != '/'
    ensures ResourcePath(root, pageDir, Some(path)).Some?
    ensures JoinedUnder(pageDir, path, ResourcePath(root, pageDir, Some(path)).value)
  {
  }

  /** The separator joining puts after the directory `dir`. */
  function Sep(dir: string): string {
    if Gap(dir) == 1 then "/" else ""
  }

  /** Joining a relative path is the directory, its separator and the path. */
  lemma JoinRelative(dir: string, path: string)
    requires path == [] || path[0] != '/'
    ensures JoinPath(dir, path) == dir + Sep(dir) + path
  {
  }

  /** The site root and the page's directory give different paths for the
      same relative path whenever they are not the same directory up to a
      trailing `/`: so a `src` starting with `/` is not looked for below the
      page's directory. */
  lemma RootAndPageDiffer(root: string, pageDir: string, path: string)
    requires path == [] || path[0] != '/'
    requires root + Sep(root) != pageDir + Sep(pageDir)
    ensures ResourcePath(root, pageDir, Some("/" + path)).value != JoinPath(pageDir, path)
  {
    assert ClassifySrc(Some("/" + path)) == FromRoot(path);
    JoinRelative(root, path);
    JoinRelative(pageDir, path);
  }

  /** Two sibling directories: `/x` is looked for at `/a/x`, not `/b/x`. */
  lemma SiblingDirectories()
    ensures ResourcePath("/a", "/b", Some("/x")) == Some("/a/x")
    ensures JoinPath("/b", "x") == "/b/x"
  {
    assert ClassifySrc(Some("/x")) == FromRoot("x");
    assert JoinPath("/a", "x") == "/a" + "/" + "x" == "/a/x";
    assert JoinPath("/b", "x") == "/b" + "/" + "x" == "/b/x";
  }

  /** The lookup runs on the page as written, before `extract_content`'s
      repair: a protocol-relative `src` such as `//host/a.png` drops the
      site root and names the absolute path `/host/a.png`. */
  lemma ProtocolRelativeLeavesRoot(root: string, pageDir: string)
    ensures ResourcePath(root, pageDir, Some("//host/a.png")) == Some("/host/a.png")
  {
    assert ClassifySrc(Some("//host/a.png")) == FromRoot("/host/a.png");
  }

  /** The image lookups of one page, in document order. */
  function ImageLookups(doc: Node, root: string, pageDir: string): (r: seq<string>)
    ensures |r| <= |FindAll(doc, Named("img"))|
  {
    LookupEach(FindAll(doc, Named("img")), root, pageDir)
  }

  function LookupEach(imgs: seq<Hit>, root: string, pageDir: string): (r: seq<string>)
    ensures |r| <= |imgs|
    ensures |r| == |imgs| <==> forall i :: 0 <= i < |imgs| ==> HasNonEmptyAttr(imgs[i].node, "src")
  {
    if imgs == [] then []
    else
      var rest := LookupEach(imgs[1..], root, pageDir);
      assert (forall i :: 0 <= i < |imgs| ==> HasNonEmptyAttr(imgs[i].node, "src")) <==>
             HasNonEmptyAttr(imgs[0].node, "src") && forall i :: 0 <= i < |imgs[1..]| ==> HasNonEmptyAttr(imgs[1..][i].node, "src") by {
        forall i | 1 <= i < |imgs|
          ensures imgs[i] == imgs[1..][i - 1]
        {
        }
      }
      match ResourcePath(root, pageDir, Attr(imgs[0].node, "src"))
      case None => rest
      case Some(p) => [p] + rest
  }

  /** The lookups of one image: its path, or nothing when it is skipped. */
  lemma LookupEachOne(h: Hit, root: string, pageDir: string)
    ensures LookupEach([h], root, pageDir) ==
            match ResourcePath(root, pageDir, Attr(h.node, "src"))
            case None => []
            case Some(p) => [p]
  {
    assert [h][1..] == [];
  }

  /** The lookups of a list of images are those of its parts, in order: the
      loop visits every image once, front to back. */
  lemma {:induction false} LookupEachAppend(a: seq<Hit>, b: seq<Hit>, root: string, pageDir: string)
    ensures LookupEach(a + b, root, pageDir) == LookupEach(a, root, pageDir) + LookupEach(b, root, pageDir)
    decreases |a|
  {
    if a == [] {
      assert a + b == b;
    } else {
      assert (a + b)[1..] == a[1..] + b;
      assert (a + b)[0] == a[0];
      LookupEachAppend(a[1..], b, root, pageDir);
    }
  }

  // ---------------------------------------------------------------------------
  // process_html_file
  // ---------------------------------------------------------------------------

  /** A Markdown file to write: its name in the posts directory and its text. */
  datatype Output = Output(fileName: string, text: string)

  /** The library pieces a page goes through: the HTML parser, the date
      reader (`extract_dates`), the date format and the converters. */
  datatype Tools<!D> = Tools(
    parse: string -> Node,
    readDates: Node -> (Option<D>, Option<D>),
    format: D -> string,
    conv: Converter)

  /** `process_html_file` for a page with text `html`, in a posts directory
      already holding the files `existing`. */
  function ProcessPage<D(==)>(html: string, tools: Tools<D>, existing: set<string>): (r: Option<Output>)
    ensures r.None? <==> !IsArticlePage(html)
    ensures r.Some? ==> r.value.fileName !in existing && IsSuffix(".md", r.value.fileName)
    ensures r.Some? ==>
              var doc := tools.parse(html);
              && IsPrefix(FrontMatter.Fence + "\n" + TitleKey + ExtractTitle(doc) + "\"\n", r.value.text)
              && IsSuffix(FrontMatter.Fence + "\n\n" + ExtractContent(doc, tools.conv), r.value.text)
    ensures r.Some? ==>
              r.value.fileName == MarkdownFile(ChooseFileName(SanitizeFilename(ExtractTitle(tools.parse(html))), existing))
  {
    if !IsArticlePage(html) then None
    else
      var doc := tools.parse(html);
      var title := ExtractTitle(doc);
      var dates := tools.readDates(doc);
      var name := ChooseFileName(SanitizeFilename(title), existing);
      var text := RenderPost(title, dates.0, dates.1, ExtractCategories(doc), ExtractTags(doc),
                             tools.format, ExtractContent(doc, tools.conv));
      ConcatEnds(name, ".md");
      Some(Output(MarkdownFile(name), text))
  }

  /** The file written for an article page reads back to the header built
      from the page's title, dates, first category and first tag, and to the
      extracted body, as long as no header value holds a line break. */
  lemma ProcessPageReadsBack<D>(html: string, tools: Tools<D>, existing: set<string>)
    requires IsArticlePage(html)
    ensures var doc := tools.parse(html);
            var dates := tools.readDates(doc);
            var h := HeaderOf(ExtractTitle(doc), dates.0, dates.1, ExtractCategories(doc), ExtractTags(doc), tools.format);
            HeaderSafe(h) ==>
              FrontMatter.ReadPost(ProcessPage(html, tools, existing).value.text) == Some((h, ExtractContent(doc, tools.conv)))
  {
  }

  /** How many of `pages` are article pages. */
  function ArticleCount(pages: seq<string>): (k: nat)
    ensures k <= |pages|
  {
    if pages == [] then 0 else (if IsArticlePage(pages[0]) then 1 else 0) + ArticleCount(pages[1..])
  }

  /** The pages of a run processed one after another, each written file
      joining the existing ones before the next page. */
  function ProcessAll<D(==)>(pages: seq<string>, tools: Tools<D>, existing: set<string>): (outs: seq<Output>)
    ensures |outs| == ArticleCount(pages)
    ensures forall i :: 0 <= i < |outs| ==> outs[i].fileName !in existing
    ensures forall i, j :: 0 <= i < j < |outs| ==> outs[i].fileName != outs[j].fileName
    decreases |pages|
  {
    if pages == [] then []
    else
      match ProcessPage(pages[0], tools, existing)
      case None => ProcessAll(pages[1..], tools, existing)
      case Some(out) =>
        var rest := ProcessAll(pages[1..], tools, existing + {out.fileName});
        FreshNames(out, rest, existing);
        [out] + rest
  }

  /** A fresh file followed by files fresh even with it added stay fresh
      and pairwise distinct. */
  lemma FreshNames(out: Output, rest: seq<Output>, existing: set<string>)
    requires out.fileName !in existing
    requires forall i :: 0 <= i < |rest| ==> rest[i].fileName !in existing + {out.fileName}
    requires forall i, j :: 0 <= i < j < |rest| ==> rest[i].fileName != rest[j].fileName
    ensures forall i :: 0 <= i < |[out] + rest| ==> ([out] + rest)[i].fileName !in existing
    ensures forall i, j :: 0 <= i < j < |[out] + rest| ==> ([out] + rest)[i].fileName != ([out] + rest)[j].fileName
  {
    var outs := [out] + rest;
    assert forall j :: 0 < j < |outs| ==> outs[j] == rest[j - 1];
  }
}

=== FILE: strings.dfy ===
/**
 Character and string primitives with the meaning Python gives them: whitespace
 as `str.isspace` sees it, `strip`, the `in` operator on strings, `find`,
 `replace`, `join` and the decimal rendering of a non-negative `int`.
 */
module Strings {
  import opened Wrappers

  /** The characters for which Python's `str.isspace()` holds; the same
      characters are matched by `\s` in a `str` regular expression and
      removed by `str.strip()`: U+0009 to U+000D, U+001C to U+0020, U+0085,
      U+00A0, U+1680, U+2000 to U+200A, U+2028, U+2029, U+202F, U+205F and
      U+3000. */
  predicate IsSpace(c: char) {
    || '\U{9}' <= c <= '\U{D}'
    || '\U{1C}' <= c <= '\U{20}'
    || c == '\U{85}' || c == '\U{A0}' || c == '\U{1680}'
    || '\U{2000}' <= c <= '\U{200A}'
    || c == '\U{2028}' || c == '\U{2029}' || c == '\U{202F}' || c == '\U{205F}' || c == '\U{3000}'
  }

  predicate IsAsciiDigit(c: char) {
    '0' <= c <= '9'
  }

  predicate IsPrefix(p: string, s: string) {
    |p| <= |s| && s[..|p|] == p
  }

  predicate IsSuffix(p: string, s: string) {
    |p| <= |s| && s[|s| - |p|..] == p
  }

  /** The two halves of a concatenation are its prefix and its suffix. */
  lemma ConcatEnds(a: string, b: string)
    ensures IsPrefix(a, a + b) && IsSuffix(b, a + b)
  {
    assert (a + b)[..|a|] == a;
    assert (a + b)[|a|..] == b;
  }

  /** No two neighbouring characters are both whitespace. */
  ghost predicate NoAdjacentSpaces(s: string) {
    forall i, j :: 0 <= i < j < |s| && j == i + 1 ==> !(IsSpace(s[i]) && IsSpace(s[j]))
  }

  /** True when `pat` occurs in `s` starting at index `i`. */
  predicate OccursAt(s: string, pat: string, i: int) {
    0 <= i && i + |pat| <= |s| && s[i..i + |pat|] == pat
  }

  // ---------------------------------------------------------------------------
  // Visible characters and strip()
  // ---------------------------------------------------------------------------

  /** The non-whitespace characters of `s`, in order. */
  function Visible(s: string): (r: string)
    ensures |r| <= |s|
  {
    if s == [] then []
    else if IsSpace(s[0]) then Visible(s[1..])
    else [s[0]] + Visible(s[1..])
  }

  lemma {:induction false} VisibleAppend(a: string, b: string)
    ensures Visible(a + b) == Visible(a) + Visible(b)
  {
    if a == [] {
      assert a + b == b;
    } else {
      assert (a + b)[1..] == a[1..] + b;
      VisibleAppend(a[1..], b);
    }
  }

  /** A string has no visible character exactly when it is all whitespace. */
  lemma {:induction false} VisibleEmptyIff(s: string)
    ensures Visible(s) == [] <==> forall i :: 0 <= i < |s| ==> IsSpace(s[i])
  {
    if s != [] {
      VisibleEmptyIff(s[1..]);
      if IsSpace(s[0]) {
        forall i | 0 <= i < |s| && (forall j :: 0 <= j < |s[1..]| ==> IsSpace(s[1..][j]))
          ensures IsSpace(s[i])
        {
          if i > 0 {
            assert s[i] == s[1..][i - 1];
          }
        }
      }
    }
  }

  /** Number of leading whitespace characters. */
  function LeadLen(s: string): (k: nat)
    ensures k <= |s|
    ensures forall i :: 0 <= i < k ==> IsSpace(s[i])
    ensures k < |s| ==> !IsSpace(s[k])
  {
    if s == [] || !IsSpace(s[0]) then 0 else 1 + LeadLen(s[1..])
  }

  /** Number of trailing whitespace characters. */
  function TrailLen(s: string): (k: nat)
    ensures k <= |s|
    ensures forall i :: |s| - k <= i < |s| ==> IsSpace(s[i])
    ensures k < |s| ==> !IsSpace(s[|s| - 1 - k])
  {
    if s == [] || !IsSpace(s[|s| - 1]) then 0 else 1 + TrailLen(s[..|s| - 1])
  }

  /** Neither end of `s` is whitespace. */
  predicate Trimmed(s: string) {
    s == [] || (!IsSpace(s[0]) && !IsSpace(s[|s| - 1]))
  }

  /** Python's `s.strip()`. */
  function Strip(s: string): (r: string)
    ensures Trimmed(r)
    ensures LeadLen(s) + |r| <= |s|
    ensures r == s[LeadLen(s)..LeadLen(s) + |r|]
    ensures Visible(r) == Visible(s)
    ensures Trimmed(s) ==> r == s
  {
    var a := LeadLen(s);
    var t := s[a..];
    var r := t[..|t| - TrailLen(t)];
    StripKeepsVisible(s);
    StripTrims(s);
    StripFixesTrimmed(s);
    SliceOfSlice(s, a, |r|);
    r
  }

  /** Cutting whitespace off both ends keeps every visible character. */
  lemma StripKeepsVisible(s: string)
    ensures var t := s[LeadLen(s)..]; Visible(t[..|t| - TrailLen(t)]) == Visible(s)
  {
    var t := s[LeadLen(s)..];
    VisibleDropFront(s, LeadLen(s));
    VisibleDropBack(t, |t| - TrailLen(t));
  }

  /** Cutting whitespace off both ends leaves neither end whitespace. */
  lemma StripTrims(s: string)
    ensures var t := s[LeadLen(s)..]; Trimmed(t[..|t| - TrailLen(t)])
  {
    var a := LeadLen(s);
    var t := s[a..];
    var n := |t| - TrailLen(t);
    if n > 0 {
      SliceIndex(s, a, n, 0);
      assert !IsSpace(s[a]);
      SliceIndex(t, 0, n, n - 1);
      assert t[0..] == t;
      assert !IsSpace(t[n - 1]);
    }
  }

  /** A string with neither end whitespace is its own stripped form. */
  lemma StripFixesTrimmed(s: string)
    ensures Trimmed(s) ==> var t := s[LeadLen(s)..]; t[..|t| - TrailLen(t)] == s
  {
    if Trimmed(s) {
      assert LeadLen(s) == 0;
      assert s[0..] == s;
    }
  }

  lemma SliceIndex<T>(s: seq<T>, a: nat, n: nat, i: nat)
    requires a + n <= |s| && i < n
    ensures s[a..][..n][i] == s[a + i]
  {
  }

  lemma SliceOfSlice<T>(s: seq<T>, a: nat, n: nat)
    requires a + n <= |s|
    ensures s[a..][..n] == s[a..a + n]
  {
  }

  /** Putting the first element back in front of a cut one element along. */
  lemma PrependCut<T>(t: seq<T>, w: nat, c: seq<T>, d: seq<T>)
    requires 0 < w <= |t|
    requires c == t[1..][..w - 1] + d
    ensures [t[0]] + c == t[..w] + d
  {
    assert [t[0]] + t[1..][..w - 1] == t[..w];
  }

  lemma AppendAssoc<T>(x: seq<T>, y: seq<T>, z: seq<T>)
    ensures x + (y + z) == (x + y) + z
  {
  }

  lemma ConsTail<T>(x: T, s: seq<T>)
    ensures ([x] + s)[1..] == s && ([x] + s)[0] == x
  {
  }

  /** Every element of a suffix is an element of the whole. */
  lemma SuffixMembers<T>(s: seq<T>, k: nat)
    requires k <= |s|
    ensures forall j :: 0 <= j < |s[k..]| ==> s[k..][j] in s
  {
    forall j | 0 <= j < |s[k..]|
      ensures s[k..][j] in s
    {
      assert s[k..][j] == s[k + j];
    }
  }

  lemma TailIndices<T>(s: seq<T>)
    requires s != []
    ensures forall i :: 1 <= i < |s| ==> s[i] == s[1..][i - 1]
  {
  }

  /** The visible characters of a prefix are a prefix of the visible characters. */
  lemma PrefixVisible(p: string, s: string)
    requires IsPrefix(p, s)
    ensures IsPrefix(Visible(p), Visible(s))
  {
    TakeDrop(s, |p|);
    VisibleAppend(p, s[|p|..]);
  }

  lemma TakeDrop<T>(s: seq<T>, b: nat)
    requires b <= |s|
    ensures s == s[..b] + s[b..]
  {
  }

  /** Leading whitespace adds no visible character. */
  lemma {:induction false} VisibleDropFront(s: string, a: nat)
    requires a <= |s|
    requires forall i :: 0 <= i < a ==> IsSpace(s[i])
    ensures Visible(s[a..]) == Visible(s)
  {
    if a > 0 {
      assert forall i :: 0 <= i < a - 1 ==> s[1..][i] == s[i + 1];
      VisibleDropFront(s[1..], a - 1);
      assert s[1..][a - 1..] == s[a..];
    }
  }

  /** Trailing whitespace adds no visible character. */
  lemma VisibleDropBack(s: string, b: nat)
    requires b <= |s|
    requires forall i :: b <= i < |s| ==> IsSpace(s[i])
    ensures Visible(s[..b]) == Visible(s)
  {
    TakeDrop(s, b);
    VisibleAppend(s[..b], s[b..]);
    assert forall i :: 0 <= i < |s[b..]| ==> s[b..][i] == s[b + i];
    VisibleEmptyIff(s[b..]);
  }

  /** The stripped string is empty exactly when the input is all whitespace. */
  lemma StripEmptyIff(s: string)
    ensures Strip(s) == [] <==> forall i :: 0 <= i < |s| ==> IsSpace(s[i])
  {
    VisibleEmptyIff(s);
    VisibleEmptyIff(Strip(s));
  }

  /** Stripping whitespace from around a string whose ends are visible gives
      that string back. */
  lemma StripFrame(a: string, m: string, z: string)
    requires forall i :: 0 <= i < |a| ==> IsSpace(a[i])
    requires forall i :: 0 <= i < |z| ==> IsSpace(z[i])
    requires Trimmed(m)
    ensures Strip(a + m + z) == m
  {
    var s := a + m + z;
    if m == [] {
      forall i | 0 <= i < |s|
        ensures IsSpace(s[i])
      {
        if i < |a| {
          assert s[i] == a[i];
        } else {
          assert s[i] == z[i - |a|];
        }
      }
      StripEmptyIff(s);
    } else {
      var k := LeadLen(s);
      assert s[|a|] == m[0];
      assert k == |a|;
      var t := s[k..];
      assert t == m + z;
      var e := TrailLen(t);
      assert t[|t| - 1 - |z|] == m[|m| - 1];
      assert e == |z|;
      assert t[..|t| - e] == m;
    }
  }

  // ---------------------------------------------------------------------------
  // split()
  // ---------------------------------------------------------------------------

  /** Number of leading non-whitespace characters. */
  function WordLen(s: string): (k: nat)
    ensures k <= |s|
    ensures forall i :: 0 <= i < k ==> !IsSpace(s[i])
    ensures k < |s| ==> IsSpace(s[k])
  {
    if s == [] || IsSpace(s[0]) then 0 else 1 + WordLen(s[1..])
  }

  /** A non-empty run of non-whitespace characters. */
  predicate IsWord(w: string) {
    w != [] && forall i :: 0 <= i < |w| ==> !IsSpace(w[i])
  }

  /** Python's `s.split()` with no separator: the maximal runs of
      non-whitespace characters, in order. */
  function Words(s: string): (ws: seq<string>)
    ensures forall i :: 0 <= i < |ws| ==> IsWord(ws[i])
    decreases |s|
  {
    var t := s[LeadLen(s)..];
    if t == [] then []
    else
      assert !IsSpace(t[0]);
      var k := WordLen(t);
      var rest := Words(t[k..]);
      ConsTail(t[..k], rest);
      TailIndices([t[..k]] + rest);
      [t[..k]] + rest
  }

  /** Leading whitespace does not change the words. */
  lemma WordsSkipSpace(s: string)
    ensures Words(s) == Words(s[LeadLen(s)..])
  {
    var v := s[LeadLen(s)..];
    assert LeadLen(v) == 0;
    assert v[0..] == v;
  }

  // ---------------------------------------------------------------------------
  // Searching: `pat in s` and `s.find(pat)`
  // ---------------------------------------------------------------------------

  /** The first index at or after `from` where `pat` occurs in `s`. */
  function FindFrom(s: string, pat: string, from: nat): (r: Option<nat>)
    ensures r.Some? ==> from <= r.value && OccursAt(s, pat, r.value)
    ensures r.Some? ==> forall j :: from <= j < r.value ==> !OccursAt(s, pat, j)
    ensures r.None? ==> forall j :: from <= j ==> !OccursAt(s, pat, j)
    decreases |s| - from
  {
    if from + |pat| > |s| then None
    else if s[from..from + |pat|] == pat then Some(from)
    else FindFrom(s, pat, from + 1)
  }

  /** Python's `s.find(pat)`, with `None` for -1. */
  function IndexOf(s: string, pat: string): Option<nat> {
    FindFrom(s, pat, 0)
  }

  /** Python's `pat in s`. */
  predicate Contains(s: string, pat: string) {
    IndexOf(s, pat).Some?
  }

  /** `pat in s` holds exactly when `s` can be cut around a copy of `pat`. */
  lemma ContainsIff(s: string, pat: string)
    ensures Contains(s, pat) <==> exists a, b :: s == a + pat + b
  {
    if Contains(s, pat) {
      var k := IndexOf(s, pat).value;
      assert s == s[..k] + pat + s[k + |pat|..];
    }
    if exists a, b :: s == a + pat + b {
      var a, b :| s == a + pat + b;
      assert s[|a|..|a| + |pat|] == pat;
      assert OccursAt(s, pat, |a|);
    }
  }

  /** An occurrence at `k` inside a prefix is an occurrence at `k` in the
      whole string. */
  lemma OccursOfPrefix(s: string, p: string, pat: string, k: nat)
    requires IsPrefix(p, s)
    requires OccursAt(p, pat, k)
    ensures OccursAt(s, pat, k)
  {
    forall j | 0 <= j < |pat|
      ensures s[k..k + |pat|][j] == pat[j]
    {
      assert p[k..k + |pat|][j] == pat[j];
      assert s[k + j] == s[..|p|][k + j];
    }
  }

  /** An occurrence inside a prefix is an occurrence in the whole string. */
  lemma ContainsOfPrefix(s: string, p: string, pat: string)
    requires IsPrefix(p, s)
    requires Contains(p, pat)
    ensures Contains(s, pat)
  {
    OccursOfPrefix(s, p, pat, IndexOf(p, pat).value);
  }

  /** Every string occurs in itself. */
  lemma ContainsSelf(s: string)
    ensures Contains(s, s)
  {
    assert OccursAt(s, s, 0);
  }

  /** An occurrence stays an occurrence when text is added on both sides. */
  lemma ContainsInfix(a: string, s: string, b: string, pat: string)
    requires Contains(s, pat)
    ensures Contains(a + s + b, pat)
  {
    var k := IndexOf(s, pat).value;
    var t := a + s + b;
    assert OccursAt(s, pat, k);
    assert t[|a| + k..|a| + k + |pat|] == s[k..k + |pat|];
    assert OccursAt(t, pat, |a| + k);
  }

  // ---------------------------------------------------------------------------
  // Replacement: `s.replace(target, repl)`
  // ---------------------------------------------------------------------------

  /** Python's `s.replace(target, repl)`: every non-overlapping occurrence of
      `target`, scanned left to right, is replaced by `repl`. */
  function ReplaceAll(s: string, target: string, repl: string): string
    requires |target| > 0
    decreases |s|
  {
    if |s| < |target| then s
    else if s[..|target|] == target then repl + ReplaceAll(s[|target|..], target, repl)
    else [s[0]] + ReplaceAll(s[1..], target, repl)
  }

  /** Where `target` starts nowhere, `replace` changes nothing. */
  lemma {:induction false} ReplaceNowhere(s: string, target: string, repl: string)
    requires |target| > 0
    requires forall j :: 0 <= j ==> !OccursAt(s, target, j)
    ensures ReplaceAll(s, target, repl) == s
    decreases |s|
  {
    if |s| < |target| {
    } else {
      assert !OccursAt(s, target, 0);
      assert s[..|target|] != target;
      forall j | 0 <= j
        ensures !OccursAt(s[1..], target, j)
      {
        OccursAtTail(s, target, j);
      }
      ReplaceNowhere(s[1..], target, repl);
      assert s == [s[0]] + s[1..];
    }
  }

  /** A string that does not contain `target` is left as it is. */
  lemma ReplaceAbsent(s: string, target: string, repl: string)
    requires |target| > 0 && !Contains(s, target)
    ensures ReplaceAll(s, target, repl) == s
  {
    ReplaceNowhere(s, target, repl);
  }

  /** Dropping the first character moves every occurrence one place left. */
  lemma OccursAtTail(s: string, pat: string, j: nat)
    requires s != []
    ensures OccursAt(s[1..], pat, j) <==> OccursAt(s, pat, j + 1)
  {
    if j + |pat| <= |s[1..]| {
      assert s[1..][j..j + |pat|] == s[j + 1..j + 1 + |pat|];
    }
  }

  /** `replace` copies everything before the first occurrence, puts `repl`
      in its place and carries on after it. */
  lemma {:induction false} ReplaceAtFirst(pre: string, target: string, post: string, repl: string)
    requires |target| > 0
    requires forall j :: 0 <= j < |pre| ==> !OccursAt(pre + target + post, target, j)
    ensures ReplaceAll(pre + target + post, target, repl) == pre + repl + ReplaceAll(post, target, repl)
    decreases |pre|
  {
    var s := pre + target + post;
    if pre == [] {
      assert s == target + post;
      ReplaceAtStart(s, target, repl);
      assert s[|target|..] == post;
    } else {
      var t := pre[1..] + target + post;
      assert s[1..] == t;
      forall j | 0 <= j < |pre| - 1
        ensures !OccursAt(t, target, j)
      {
        OccursAtTail(s, target, j);
      }
      ReplaceAtFirst(pre[1..], target, post, repl);
      ReplaceAfterMiss(pre, target, post, repl);
    }
  }

  /** One character in front of the occurrence is copied as it is. */
  lemma ReplaceAfterMiss(pre: string, target: string, post: string, repl: string)
    requires |target| > 0 && pre != [] && !OccursAt(pre + target + post, target, 0)
    requires ReplaceAll(pre[1..] + target + post, target, repl) == pre[1..] + repl + ReplaceAll(post, target, repl)
    ensures ReplaceAll(pre + target + post, target, repl) == pre + repl + ReplaceAll(post, target, repl)
  {
    var s := pre + target + post;
    assert s[1..] == pre[1..] + target + post;
    ReplaceSkipsMiss(s, target, repl);
    assert [pre[0]] + pre[1..] == pre;
  }

  /** An occurrence at the very start is replaced first. */
  lemma ReplaceAtStart(s: string, target: string, repl: string)
    requires |target| > 0 && OccursAt(s, target, 0)
    ensures ReplaceAll(s, target, repl) == repl + ReplaceAll(s[|target|..], target, repl)
  {
    assert s[..|target|] == target;
  }

  /** Where no occurrence starts, `replace` copies the character. */
  lemma ReplaceSkipsMiss(s: string, target: string, repl: string)
    requires |target| > 0 && |target| <= |s| && !OccursAt(s, target, 0)
    ensures ReplaceAll(s, target, repl) == [s[0]] + ReplaceAll(s[1..], target, repl)
  {
    assert s[..|target|] != target;
  }

  /** Replacing a string by itself changes nothing. */
  lemma {:induction false} ReplaceBySelf(s: string, target: string)
    requires |target| > 0
    ensures ReplaceAll(s, target, target) == s
    decreases |s|
  {
    if |s| < |target| {
    } else if s[..|target|] == target {
      ReplaceBySelf(s[|target|..], target);
      assert s == target + s[|target|..];
    } else {
      ReplaceBySelf(s[1..], target);
      assert s == [s[0]] + s[1..];
    }
  }

  // ---------------------------------------------------------------------------
  // join
  // ---------------------------------------------------------------------------

  /** Python's `sep.join(parts)`. */
  function Join(parts: seq<string>, sep: string): (r: string)
    ensures |parts| == 1 ==> r == parts[0]
  {
    if parts == [] then []
    else if |parts| == 1 then parts[0]
    else parts[0] + sep + Join(parts[1..], sep)
  }

  /** Each part occurs in the joined string. */
  lemma {:induction false} JoinContainsPart(parts: seq<string>, sep: string, i: nat)
    requires i < |parts|
    ensures Contains(Join(parts, sep), parts[i])
    decreases |parts|
  {
    if |parts| == 1 {
      ContainsSelf(parts[0]);
    } else if i == 0 {
      ContainsSelf(parts[0]);
      ContainsInfix([], parts[0], sep + Join(parts[1..], sep), parts[0]);
      assert [] + parts[0] + (sep + Join(parts[1..], sep)) == Join(parts, sep);
    } else {
      JoinContainsPart(parts[1..], sep, i - 1);
      ContainsInfix(parts[0] + sep, Join(parts[1..], sep), [], parts[i]);
      assert parts[0] + sep + Join(parts[1..], sep) + [] == Join(parts, sep);
    }
  }

  /** Joining two non-empty lists puts one separator between them. */
  lemma {:induction false} JoinAppend(a: seq<string>, b: seq<string>, sep: string)
    requires a != [] && b != []
    ensures Join(a + b, sep) == Join(a, sep) + sep + Join(b, sep)
    decreases |a|
  {
    assert (a + b)[0] == a[0];
    assert (a + b)[1..] == a[1..] + b;
    if |a| > 1 {
      JoinAppend(a[1..], b, sep);
      AppendAssoc(a[0] + sep, Join(a[1..], sep), sep + Join(b, sep));
    }
  }

  /** Python's `"".join(parts)`. */
  function Concat(parts: seq<string>): string {
    Join(parts, "")
  }

  /** Concatenating two lists of parts concatenates their texts. */
  lemma ConcatAppend(a: seq<string>, b: seq<string>)
    ensures Concat(a + b) == Concat(a) + Concat(b)
  {
    if a == [] {
      assert a + b == b;
    } else if b == [] {
      assert a + b == a;
    } else {
      JoinAppend(a, b, "");
    }
  }

  // ---------------------------------------------------------------------------
  // split on one character
  // ---------------------------------------------------------------------------

  /** The index of the first `c` in `s`, or `|s|` when there is none. */
  function CharIndex(s: string, c: char): (k: nat)
    ensures k <= |s|
    ensures forall i :: 0 <= i < k ==> s[i] != c
    ensures k < |s| ==> s[k] == c
  {
    if s == [] || s[0] == c then 0 else 1 + CharIndex(s[1..], c)
  }

  /** Python's `s.split(sep)` for a one-character separator: the pieces
      between separators, empty ones included, so never an empty list. */
  function Split(s: string, sep: char): (parts: seq<string>)
    ensures |parts| >= 1
    ensures forall i :: 0 <= i < |parts| ==> sep !in parts[i]
    decreases |s|
  {
    var k := CharIndex(s, sep);
    if k == |s| then [s] else [s[..k]] + Split(s[k + 1..], sep)
  }

  /** Joining the pieces with the separator gives the string back. */
  lemma {:induction false} JoinSplit(s: string, sep: char)
    ensures Join(Split(s, sep), [sep]) == s
    decreases |s|
  {
    var k := CharIndex(s, sep);
    if k < |s| {
      var rest := Split(s[k + 1..], sep);
      JoinSplit(s[k + 1..], sep);
      assert Split(s, sep) == [s[..k]] + rest;
      assert ([s[..k]] + rest)[1..] == rest;
      assert s == s[..k] + [sep] + s[k + 1..];
    }
  }

  /** Splitting pieces joined by a separator none of them holds gives the
      pieces back. */
  lemma {:induction false} SplitJoin(parts: seq<string>, sep: char)
    requires |parts| >= 1
    requires forall i :: 0 <= i < |parts| ==> sep !in parts[i]
    ensures Split(Join(parts, [sep]), sep) == parts
    decreases |parts|
  {
    var s := Join(parts, [sep]);
    var p := parts[0];
    if |parts| == 1 {
      assert CharIndex(s, sep) == |s|;
    } else {
      var t := Join(parts[1..], [sep]);
      assert s == p + [sep] + t;
      assert s[|p|] == sep;
      assert CharIndex(s, sep) == |p|;
      assert s[..|p|] == p;
      assert s[|p| + 1..] == t;
      SplitJoin(parts[1..], sep);
      assert [p] + parts[1..] == parts;
    }
  }

  // ---------------------------------------------------------------------------
  // Text with slots
  // ---------------------------------------------------------------------------

  /** `segs[0] + xs[0] + segs[1] + xs[1] + ... + segs[|xs|]`: the strings
      `xs` set in slots between the segments. */
  function Weave(segs: seq<string>, xs: seq<string>): string
    requires |segs| == |xs| + 1
    decreases |xs|
  {
    if xs == [] then segs[0] else segs[0] + xs[0] + Weave(segs[1..], xs[1..])
  }

  /** A woven text is what comes before slot `i`, the string in slot `i`,
      and what comes after it. */
  lemma {:induction false} WeaveSplit(segs: seq<string>, xs: seq<string>, i: nat)
    requires |segs| == |xs| + 1 && i < |xs|
    ensures Weave(segs, xs) == Weave(segs[..i + 1], xs[..i]) + xs[i] + Weave(segs[i + 1..], xs[i + 1..])
    decreases i
  {
    if i > 0 {
      WeaveSplit(segs[1..], xs[1..], i - 1);
      assert segs[1..][..i] == segs[..i + 1][1..];
      assert xs[1..][..i - 1] == xs[..i][1..];
      assert segs[1..][i..] == segs[i + 1..];
      assert xs[1..][i..] == xs[i + 1..];
      assert xs[1..][i - 1] == xs[i];
      var head := segs[0] + xs[0];
      var before := Weave(segs[1..][..i], xs[1..][..i - 1]);
      var after := Weave(segs[i + 1..], xs[i + 1..]);
      AppendAssoc(head, before + xs[i], after);
      AppendAssoc(head, before, xs[i]);
    }
  }

  // ---------------------------------------------------------------------------
  // Decimal rendering of a counter: f"{n}"
  // ---------------------------------------------------------------------------

  function DigitChar(d: nat): (c: char)
    requires d < 10
    ensures IsAsciiDigit(c)
  {
    ('0' as int + d) as char
  }

  function DigitValue(c: char): (d: nat)
    requires IsAsciiDigit(c)
    ensures d < 10 && DigitChar(d) == c
  {
    (c as int - '0' as int)
  }

  /** `str(n)` for a non-negative integer: decimal, no leading zeros. */
  function NatToString(n: nat): (r: string)
    ensures |r| >= 1
    ensures forall i :: 0 <= i < |r| ==> IsAsciiDigit(r[i])
    decreases n
  {
    if n < 10 then [DigitChar(n)] else NatToString(n / 10) + [DigitChar(n % 10)]
  }

  /** Reads a string of ASCII digits as a decimal number. */
  function ParseDecimal(s: string): (n: nat)
    requires forall i :: 0 <= i < |s| ==> IsAsciiDigit(s[i])
  {
    if s == [] then 0 else ParseDecimal(s[..|s| - 1]) * 10 + DigitValue(s[|s| - 1])
  }

  /** Reading back the rendering of `n` gives `n`. */
  lemma {:induction false} ParseNatToString(n: nat)
    ensures ParseDecimal(NatToString(n)) == n
    decreases n
  {
    var s := NatToString(n);
    if n < 10 {
      assert s[..|s| - 1] == [];
    } else {
      ParseNatToString(n / 10);
      assert s[..|s| - 1] == NatToString(n / 10);
      assert DigitValue(s[|s| - 1]) == n % 10;
    }
  }

  /** Distinct counters render to distinct strings. */
  lemma NatToStringInjective(m: nat, n: nat)
    ensures NatToString(m) == NatToString(n) ==> m == n
  {
    ParseNatToString(m);
    ParseNatToString(n);
  }
}

=== FILE: wrappers.dfy ===
/** The optional-value datatype used throughout the model. */
module Wrappers {

  /** `None` stands for Python's `None` (a missing element, attribute or date). */
  datatype Option<+T> = None | Some(value: T) {

    /** The wrapped value, or `default` when there is none. */
    function GetOr(default: T): T {
      match this
      case Some(v) => v
      case None => default
    }
  }
}
